=== FILE: README.md ===
# SOAP-note evaluator: scoring, rate limiting, ranking and billing in Dafny

This project models the sequential logic of a web tool that compares clinical
SOAP notes generated by several language models against a reference note. The
modelled parts are:

- the lexical overlap metrics of the evaluation engine: the tokenizer,
  ROUGE-1 as a membership overlap, ROUGE-L through a longest-common-subsequence
  table, and the length ratio (`Eval`);
- the per-IP fixed-window rate limiter in front of the generation endpoint
  (`RateLimit`);
- the leaderboard of the results dashboard: the composite score, the stable
  ranking, the winner, the per-metric maxima and the best-in-class highlight
  (`Dashboard`);
- the page's state helpers: toggling a model in the selection, guessing a
  model's provider, and the per-model updates of the results list (`Page`);
- the token and cost estimates (`Billing`).

`JsText` models the JavaScript string primitives this code relies on:

- UTF-16 `length`;
- the `\s` class (ECMAScript WhiteSpace and LineTerminator);
- `split(/\s+/)`;
- `includes`.

`Quotients` holds small facts about real division. `Wrappers` holds `Option`
and `Result`.

Modelling conventions:

- Numbers are exact `real`s. The source's integer counts are `nat`s.
- Timestamps are `int` milliseconds, passed in where the source calls `Date.now()`.
- `toLowerCase` is a parameter `lower: string -> string`.
- The BLEU value is an input, because it comes from a package whose code is
  not part of this model.
- The embedding similarity is an `Option<real>`. `None` means it failed, and
  the score is then 0.
- Metric fields that may be missing or NaN are `Option<real>`. JavaScript's
  `x || 0` becomes `GetOr(0.0)`.

Where the code and its documented intent differ, the model follows the code.
`Eval.EvaluateAll` computes ROUGE with `calculateRouge` as written. The
word-level scorer (`Eval.RougeWords`, `Eval.CalculateRougeWords`) is kept
apart, as the corrected half of the first finding below. Other divergences:

- ROUGE-1 counts every generated token that occurs anywhere in the reference,
  so it is not bounded by 1. `Eval.Rouge1CanExceedOne` shows 1.5 for
  "a a a" against "a". The proved bounds are 0 ≤ ROUGE-L ≤ ROUGE-1 < 2 and
  ROUGE-L ≤ 1.
- `lengthRatio` of two equal empty texts is 0, not 1. The equal-texts case is
  1 only for non-empty texts.
- `Math.max` over an empty chart is -Infinity (`Dashboard.Extended`), not 0.

## Model

| member | source | states |
|---|---|---|
| JsText.SplitEmpty | lib/eval.ts:26-27 | Splitting the empty text gives the single empty token, so a token list is never empty. |
| JsText.SplitTokensHaveNoWhitespace | lib/eval.ts:26-27 | No token produced by `split(/\s+/)` contains a whitespace character. |
| JsText.SplitInnerTokensNonEmpty | lib/eval.ts:26-27 | Only the first and the last token can be empty. |
| JsText.SplitFirstTokenEmptyIff | lib/eval.ts:26-27 | The first token is empty exactly when the text is empty or starts with whitespace. |
| JsText.SplitLastTokenEmptyIff | lib/eval.ts:26-27 | The last token is empty exactly when the text is empty or ends with whitespace. |
| JsText.IsWhitespace | lib/eval.ts:26-27 | The `\s` class, as ECMAScript's WhiteSpace and LineTerminator characters: space, tab, LF and CR are whitespace, and ASCII letters and digits never are. |
| JsText.SplitKeepsAllNonWhitespace | lib/eval.ts:26-27 | Concatenating the tokens gives back the text with all whitespace removed: splitting loses only whitespace. |
| JsText.Split | lib/eval.ts:26-27 | `split(/\s+/)` always gives at least one token, so the ROUGE denominators are never 0. |
| JsText.SplitJoinRoundTrip | lib/eval.ts:26-27 | Joining non-empty whitespace-free words with single spaces and splitting again returns the same words. |
| JsText.SplitWord | lib/eval.ts:26-27 | A text without whitespace splits into itself as the only token. |
| JsText.SplitAtRun | lib/eval.ts:26-27 | A word followed by a whitespace run of any length and kind (spaces, tabs, newlines) and then a non-whitespace character or the end splits into that word followed by the split of what comes after the run: each run is one separator. With `SplitWord` this fixes the result of `split(/\s+/)` on every text. |
| JsText.SplitJoinRunsRoundTrip | lib/eval.ts:26-27 | Joining non-empty whitespace-free words with arbitrary non-empty whitespace runs and splitting again returns the same words. |
| JsText.Utf16Length | lib/billing.ts:3 | JavaScript's `length` (also at lib/eval.ts:87) is between one and two code units per character, and exactly one per character for text within the Basic Multilingual Plane. |
| JsText.Utf16LengthAppend | lib/billing.ts:3 | The JavaScript length of a concatenation is the sum of the lengths. |
| JsText.Contains | app/page.tsx:52-54 | `includes` finds the empty pattern in every text; `JsText.ContainsIff` characterises it fully. |
| JsText.ContainsIff | app/page.tsx:52-54 | `includes` holds exactly when the pattern occurs at some index of the text. |
| JsText.MissingCharNotContained | app/page.tsx:52-54 | A text lacking one of the pattern's characters does not include the pattern. |
| Eval.Tokenize | lib/eval.ts:26-27 | Lower-casing and splitting always yields at least one token, so the ROUGE denominators are at least 1. |
| Eval.Rouge | lib/eval.ts:29-50 | On non-empty token lists, ROUGE-1 is the Dice coefficient 2·matches/(generated + reference tokens), and ROUGE-L is the same with the LCS length in place of the match count. |
| Eval.Intersection | lib/eval.ts:29 | The kept tokens are exactly the generated tokens, with their multiplicity, whose value occurs in the reference; there are at most as many as generated tokens. |
| Eval.LcsIsLongestCommonSubsequence | lib/eval.ts:35-45 | The recursive LCS value is the length of some common subsequence and no common subsequence is longer. |
| Eval.LcsPrefixIsUpperBound | lib/eval.ts:38-42 | Every common subsequence of two prefixes is at most as long as the table entry for those prefixes. |
| Eval.LcsPrefixIsAttained | lib/eval.ts:38-42 | Each table entry is reached by an actual common subsequence of the two prefixes. |
| Eval.LcsTable | lib/eval.ts:35-45 | The dynamic-programming table filled row by row returns exactly the longest-common-subsequence length. |
| Eval.LcsBounds | lib/eval.ts:35-45 | The LCS is at most the length of either token list. |
| Eval.LcsOfItself | lib/eval.ts:35-45 | The LCS of a list with itself is its full length. |
| Eval.LcsAtMostIntersection | lib/eval.ts:29-45 | The LCS never exceeds the ROUGE-1 match count, because every common subsequence consists of matched generated tokens. |
| Eval.F1 | lib/eval.ts:32 | F1 is 0 when precision + recall is 0, where the quotient is NaN and `|| 0` applies. Otherwise F1 times (precision + recall) equals 2·precision·recall. For non-negative inputs F1 lies between precision and recall. |
| Eval.OverlapF1 | lib/eval.ts:30-32 | F1 of precision m/g and recall m/r equals the Dice form 2m/(g+r); the NaN-to-0 guard makes a zero count give 0 instead of NaN. |
| Eval.OverlapF1Bounds | lib/eval.ts:30-32 | F1 is non-negative, zero exactly when nothing matches, at most 1 when the count is within both lengths, below 2 in general, and 1 when everything matches. |
| Eval.OverlapF1Monotone | lib/eval.ts:30-32 | More matches never lower the F1. |
| Eval.RougeBounds | lib/eval.ts:29-50 | 0 ≤ ROUGE-L ≤ ROUGE-1 < 2 and ROUGE-L ≤ 1. |
| Eval.RougeOfIdenticalTokens | lib/eval.ts:29-50 | Identical token lists score 1 on both metrics. |
| Eval.RougeZeroIffNothingShared | lib/eval.ts:32-50 | Each metric is 0 exactly when the two lists share no token. |
| Eval.CalculateRouge | lib/eval.ts:26-55 | `calculateRouge` as written, with the LCS from the table: its result equals the specification over the split tokens and obeys the bounds. |
| Eval.Rouge1CanExceedOne | lib/eval.ts:29-32 | Membership counting lets ROUGE-1 reach 1.5 ("a a a" against "a"). |
| Eval.TrailingNewlineScoresHalf | lib/eval.ts:26-32 | As written, "hello\n" against "world\n" scores 0.5 on both metrics although no word is shared. |
| Eval.EmptyTokenIsTheOnlyMatch | lib/eval.ts:29-50 | Two different words, each followed by an empty token, match only on the empty token and score 0.5. |
| Eval.WorkedExample | lib/eval.ts:26-50 | "patient reports mild headache" against "patient reports headache" scores 6/7 on both metrics. |
| Eval.WorkedExampleCounts | lib/eval.ts:29-45 | For those token lists the match count is 3 and the LCS is 3. |
| Eval.Words | lib/eval.ts:26-27 | The corrected tokenizer yields only non-empty, whitespace-free words. |
| Eval.NonEmpty | lib/eval.ts:26-27 | Dropping empty tokens keeps every non-empty token exactly as often as it occurs (same multiset minus the empty string), produces no empty token, and changes nothing when there are none. |
| Eval.NonEmptyAppend | lib/eval.ts:26-27 | Dropping empty tokens distributes over concatenation, so the remaining tokens keep their order. |
| Eval.RougeWordsZeroIffNothingShared | lib/eval.ts:29-50 | The corrected scorer gives 0 on both metrics exactly when the two word lists share no word; applied to `Words` of two texts, exactly when the texts share no word. |
| Eval.RougeWordsProperties | lib/eval.ts:29-50 | The corrected scorer obeys the bounds and gives 1 on both metrics for identical non-empty word lists. |
| Eval.RougeWordsAgreesOnTrimmedText | lib/eval.ts:26-50 | On texts without leading or trailing whitespace the corrected scorer equals the code as written. |
| Eval.CalculateRougeWords | lib/eval.ts:26-55 | The corrected method computes the word-level scores with the same table and obeys the bounds. |
| Eval.LengthRatio | lib/eval.ts:87 | The ratio is the generated length divided by the reference length (UTF-16 code units), or by 1 when the reference is empty. It is non-negative and zero exactly for an empty generated text, and 1 for equal non-empty texts. |
| Eval.SemanticScore | lib/eval.ts:63-80 | A failed similarity gives 0; otherwise the similarity itself. |
| Eval.Metrics | lib/eval.ts:82-96 | The metric record of `evaluateAll`, with ROUGE from `calculateRouge` as written: 0 ≤ ROUGE-L ≤ ROUGE-1 < 2 and ROUGE-L ≤ 1. BLEU is passed through and a failed similarity is 0. The length ratio is non-negative and zero exactly for an empty generated text. Equal texts score 1 on both ROUGE metrics, and equal non-empty texts have length ratio 1. Each field is its scorer: both ROUGE fields are `Rouge` of the two tokenized texts, the semantic field is `SemanticScore` of the similarity and the length ratio is `LengthRatio` of the texts. |
| Eval.EvaluateAll | lib/eval.ts:82-88 | The method, which runs the table-driven `calculateRouge`, returns the metric record, and its ROUGE fields are the as-written scores over the `split(/\s+/)` tokens, empty tokens included. |
| Eval.EvaluateRequest | app/api/evaluate/route.ts:8-12 | The route refuses with its message exactly when either text is empty, and otherwise returns the metric record. |
| RateLimit.CeilSeconds | lib/rate-limit.ts:15 | The reported wait is the number of milliseconds rounded up to whole seconds. |
| RateLimit.CheckRateLimit | lib/rate-limit.ts:9-36 | A blocked IP (strict `now < blockedUntil`) is refused with a wait of at least one second and nothing changes. A record with `now > expiresAt`, or no record, restarts at count 1 with a fresh window; a live window gains exactly one. Success iff not blocked and count ≤ max, leaving blocks untouched. Exceeding blocks for 300000 ms and keeps the record. Other IPs are untouched. |
| RateLimit.LiveWindowBound | lib/rate-limit.ts:19-36 | While no request falls after the window's end, the window is never restarted and at most max − count further requests succeed. |
| RateLimit.FreshWindowBound | lib/rate-limit.ts:22-36 | A window started at time t admits at most max successful requests up to t + windowMs. |
| RateLimit.FirstWindowFromEmpty | lib/rate-limit.ts:9-36 | With nothing recorded, an IP's first request is allowed. The minute that starts with it admits at most 5 requests under the default configuration and at most 10 under the generation route's (app/api/generate/route.ts:9). |
| RateLimit.LiveWindowAdmitsUpToMax | lib/rate-limit.ts:19-36 | The bound is tight: unblocked requests in a live window succeed one by one until the count reaches max. |
| RateLimit.BlockHolds | lib/rate-limit.ts:13-16 | After exceeding the limit at now, every request before now + 300000 is refused with the remaining wait, and the block lapses exactly at now + 300000. |
| RateLimit.BlockedRequestsLeaveNoTrace | lib/rate-limit.ts:13-16 | Refused blocked requests change neither map and never succeed. |
| Billing.EstimateTokens | lib/billing.ts:1-4 | 0 exactly for the empty text; otherwise the smallest t with length ≤ 4t, i.e. 4(t−1) < length ≤ 4t in UTF-16 units. |
| Billing.EstimateTokensMonotone | lib/billing.ts:1-4 | A text at least as long as another, in UTF-16 code units, never gets a smaller estimate. |
| Billing.EstimateTokensGrowWithText | lib/billing.ts:1-4 | Appending text never lowers the estimate. |
| Billing.RateOf | lib/billing.ts:6-21 | Unlisted models get the zero rate; every rate is non-negative. |
| Billing.EstimateCost | lib/billing.ts:6-23 | Unlisted and free models cost 0. Non-negative token counts give a non-negative cost. |
| Billing.EstimateCostMonotone | lib/billing.ts:22 | The cost never decreases with either token count, and the increase is the cost of the extra tokens. |
| Billing.UnlistedModelsAreFree | lib/billing.ts:21-22 | 'gpt-4-turbo-preview' and 'katanemo/Arch-Router-1.5B' (without the suffix) cost 0. |
| Billing.Gpt4oExample | lib/billing.ts:9-22 | gpt-4o with 1000 input and 1000 output tokens costs 0.02. |
| Billing.DisplayedCost | components/ResultsDashboard.tsx:174 | The cost shown is `estimateCost` as written, with the note's token estimate used for both input and output. It is NaN for a name inherited from Object.prototype. For any other name it is the estimate times the summed per-1000 rates, non-negative, and 0 for an empty note. |
| Billing.EstimateCostAsWritten | lib/billing.ts:21-22 | The lookup as written agrees with the corrected cost for every name not inherited from Object.prototype, and gives NaN for every inherited name. |
| Billing.ToStringCostsNaN | lib/billing.ts:21-22 | As written, a model named "toString" is priced NaN, whereas the corrected cost is 0. |
| Dashboard.Row | components/ResultsDashboard.tsx:31-40 | A chart row keeps the model name. Each metric, and the length ratio, is the result's field or 0 when missing. Four times the score is the sum of the four quality metrics. |
| Dashboard.ScoreIgnoresLengthRatio | components/ResultsDashboard.tsx:39 | Changing the length ratio does not change the score. |
| Dashboard.ChartData | components/ResultsDashboard.tsx:31-40 | Every result with metrics has its row in the chart. Every row comes from such a result. The chart is empty exactly when no result has metrics. |
| Dashboard.ChartDataAppend | components/ResultsDashboard.tsx:31 | Rows keep the order of their results. |
| Dashboard.Insert | components/ResultsDashboard.tsx:43 | Inserting adds exactly the one row. |
| Dashboard.InsertDescending | components/ResultsDashboard.tsx:43 | Inserting into a descending ranking keeps it descending. |
| Dashboard.SortByScore | components/ResultsDashboard.tsx:43 | The ranking is a permutation of the chart rows. |
| Dashboard.SortIsDescending | components/ResultsDashboard.tsx:43 | The ranking is non-increasing in score. |
| Dashboard.InsertWithScore | components/ResultsDashboard.tsx:43 | Inserting a row puts it ahead of the rows with its own score. |
| Dashboard.SortIsStable | components/ResultsDashboard.tsx:43 | For each score, the rows with that score appear in the ranking in their chart order, as a stable sort requires. |
| Dashboard.SortHeadIsEarliestBest | components/ResultsDashboard.tsx:43-44 | The head of the ranking is the earliest chart row with the highest score. |
| Dashboard.BestModelName | components/ResultsDashboard.tsx:44 | There is no winner exactly when the chart is empty. |
| Dashboard.BestModelIsEarliestBest | components/ResultsDashboard.tsx:43-44 | The winner's name is that of the earliest row with the highest score. |
| Dashboard.IsWinner | components/ResultsDashboard.tsx:136 | No result is the winner when there is no best model (null). Otherwise a result is the winner exactly when its name is the best model's. |
| Dashboard.WinnerOfResults | components/ResultsDashboard.tsx:136 | With no scored results nobody is the winner. Otherwise a result is the winner iff its name is that of the earliest best row. |
| Dashboard.MaxMetric | components/ResultsDashboard.tsx:47-50 | A column's maximum is -Infinity exactly for an empty chart. Otherwise it is at least every row's value and equal to one of them. |
| Dashboard.MaxOf | components/ResultsDashboard.tsx:47-50 | The maximum is -Infinity exactly for no values; otherwise it is at least every value and equal to one of them. |
| Dashboard.Column | components/ResultsDashboard.tsx:47-50 | A metric's column lists that metric for each chart row, in order. |
| Dashboard.MaxBoundsScoredResults | components/ResultsDashboard.tsx:47-50 | No scored result's metric (missing read as 0) exceeds the column maximum. |
| Dashboard.PositiveMaxIsAttained | components/ResultsDashboard.tsx:139-142 | A positive maximum is the raw value of some result, which is then highlighted. |
| Dashboard.IsBest | components/ResultsDashboard.tsx:139-142 | A highlighted result has metrics, and its field equals the finite maximum. When the maximum is not positive, nobody is highlighted. |
| Dashboard.BestInClass | components/ResultsDashboard.tsx:139-142 | Some result is highlighted iff the maximum is positive, and a highlighted result is at least as good as every scored result. |
| Dashboard.NoResultsNoMaximum | components/ResultsDashboard.tsx:47-59 | With no results the maximum is -Infinity, which is why the chart is guarded by a non-empty check. |
| Page.Remove | app/page.tsx:25 | Filtering removes every occurrence of the value and keeps every other value's membership. |
| Page.ToggleModel | app/page.tsx:23-27 | An absent value is appended at the end. After a toggle the value is selected iff it was not before, and every other value keeps its membership. |
| Page.RemoveAbsent | app/page.tsx:25 | Filtering out an absent value changes nothing. |
| Page.RemoveAppend | app/page.tsx:25 | Filtering distributes over concatenation. |
| Page.ToggleKeepsOthersInOrder | app/page.tsx:23-27 | With the toggled value set aside, the selection is the same before and after, so the others keep their order. |
| Page.ToggleTwiceRestores | app/page.tsx:23-27 | Toggling an unselected model twice restores the selection. |
| Page.RemoveKeepsDistinct | app/page.tsx:25 | Filtering a duplicate-free list keeps it duplicate-free. |
| Page.SelectionIsDistinct | app/page.tsx:14-27 | Starting from the empty selection and only toggling, no model is ever listed twice. |
| Page.ParseProvider | app/api/generate/route.ts:19-28 | The route accepts exactly the four provider names, maps each back to its name, and rejects the rest with 'Invalid provider'. |
| Page.InferProvider | app/page.tsx:51-54 | A name containing 'gemini' goes to gemini whatever else it contains. Only 'local-t5' goes to local, and huggingface is chosen only for a name containing 'HuggingFaceTB' or 'katanemo'. |
| Page.InferredProviderIsAccepted | app/page.tsx:51-54 | Whatever the model name, the route accepts the provider the page infers, so 'Invalid provider' is unreachable from the page. |
| Page.InferProviderCases | app/page.tsx:51-54 | 'gemini' anywhere gives gemini. Otherwise exactly 'local-t5' gives local. Otherwise 'HuggingFaceTB' or 'katanemo' anywhere gives huggingface. The rest is openai. |
| Page.OpenAINameInfersOpenAI | app/page.tsx:51-54 | A name is sent to openai exactly when it contains none of 'gemini', 'HuggingFaceTB' and 'katanemo' and is not 'local-t5'. |
| Page.CatalogProvidersAgree | components/ModelSelector.tsx:13-25 | For every model in the selector's catalog, the inferred provider is the one the catalog declares. |
| Page.NewResults | app/page.tsx:42 | One loading placeholder with an empty note per selected model, in selection order. |
| Page.NewResultsHaveNoWinner | app/page.tsx:42 | Before any answer nothing is scored, so there is no winner. |
| Page.StartGeneration | app/page.tsx:36-43 | Generation starts iff a transcript is loaded and a model is selected, and then shows the placeholders. |
| Page.Apply | app/page.tsx:82-94 | An update keeps length, order and names and changes only the entries of its model. Those stop loading and take the note and metrics, or the error message. |
| Page.ApplyAllSettles | app/page.tsx:82-101 | In any arrival order, an entry is still loading only if it was loading and no outcome named its model. |
| Page.AllSettled | app/page.tsx:42-101 | Once every selected model has answered, with a note or an error, no entry is loading. |

## Left out

- BLEU (lib/eval.ts:58-61) is computed by the `bleu-score` package, which is not part of this model; its value is an input of `Eval.EvaluateAll`.
- The embedding similarity (lib/eval.ts:8-16, 63-80) uses a transformer model and a foreign cosine function. It enters as `Option<real>`, and the model says only that a failure gives 0.
- `toFixed(3)` and `parseFloat` (lib/eval.ts:89-95) and all display formatting: binary floating point is not modelled, and metrics are the exact values before rounding.
- Eval.EvaluateAll: the metrics are exact reals, not IEEE doubles, so the bounds hold of the values before the three-decimal rounding only.
- `toLowerCase` is a parameter, because the host's Unicode case mapping is not reimplemented.
- Lone UTF-16 surrogates cannot occur in a Dafny string, so they are not modelled.
- lib/llm.ts (hosted model clients and local inference) is not part of this model; neither is the HTTP plumbing of the two routes beyond the evaluate route's empty-text check and the generate route's provider dispatch.
- The rate limiter's module-level maps are one immutable value, and `Date.now()` is a parameter. The exact wording of the two error messages, including the formatted seconds, is not modelled; the verdict carries the number of seconds.
- `Promise.allSettled` concurrency and React's state scheduling: outcomes are applied one after another in an arbitrary arrival order.
- The dashboard's rendering, chart, clipboard and JSON export, the file upload component and the selector's rendering are UI.
- Dashboard.SortByScore: the comparator `b.Score - a.Score` is taken to be consistent, which holds because the model's scores are reals and never NaN.

## Findings

| source | as written | input that shows it | evidently intended | confidence | as-written member | corrected member |
|---|---|---|---|---|---|---|
| lib/eval.ts:26-32 | `split(/\s+/)` keeps the empty tokens produced by leading or trailing whitespace. Those empty tokens match each other and count as shared words. | generated "hello\n", reference "world\n": ROUGE-1 = ROUGE-L = 0.5 with no word in common | only words are compared, so texts without a shared word score 0 | not executed; proved about the model | Eval.TrailingNewlineScoresHalf | Eval.RougeWordsZeroIffNothingShared |
| lib/billing.ts:21 | The fallback lookup `rates[model]` on a plain object also finds the members inherited from Object.prototype. For those names the rate is a function, `rate.in` is undefined, and the cost is NaN. | model "toString" with any token counts | models missing from the table cost 0 | not executed; proved about the model | Billing.ToStringCostsNaN | Billing.EstimateCost |

=== FILE: billing.dfy ===
/*
 * Token and cost estimates shown next to each generated note
 * (lib/billing.ts).  Prices are US dollars per 1000 tokens; amounts are
 * exact reals, so JavaScript's binary floating point is not modelled.
 */
module Billing {
  import opened JsText

  /** `estimateTokens(text)`: one token per four UTF-16 code units, rounded up. */
  function EstimateTokens(text: string): (tokens: nat)
    ensures tokens == 0 <==> text == ""
    ensures text != "" ==> 4 * (tokens - 1) < Utf16Length(text) <= 4 * tokens
  {
    if text == "" then 0 else (Utf16Length(text) + 3) / 4
  }

  /** A longer text (in UTF-16 code units) never gets a smaller estimate. */
  lemma EstimateTokensMonotone(a: string, b: string)
    ensures Utf16Length(a) <= Utf16Length(b) ==> EstimateTokens(a) <= EstimateTokens(b)
  {
    if a != "" && Utf16Length(a) <= Utf16Length(b) {
      assert b != "";
      assert 4 * (EstimateTokens(a) - 1) < Utf16Length(a) <= Utf16Length(b) <= 4 * EstimateTokens(b);
    }
  }

  /** Appending text never lowers the estimate. */
  lemma EstimateTokensGrowWithText(text: string, more: string)
    ensures EstimateTokens(text) <= EstimateTokens(text + more)
  {
    Utf16LengthAppend(text, more);
    EstimateTokensMonotone(text, text + more);
  }

  datatype Rate = Rate(input: real, output: real)

  /** The price table of estimateCost, per 1000 tokens. */
  const Rates: map<string, Rate> := map[
    "gpt-4o" := Rate(0.005, 0.015),
    "gpt-4o-mini" := Rate(0.00015, 0.0006),
    "gpt-3.5-turbo" := Rate(0.0005, 0.0015),
    "gemini-1.5-pro" := Rate(0.0, 0.0),
    "gemini-1.5-flash" := Rate(0.0, 0.0),
    "gemini-pro" := Rate(0.0, 0.0),
    "local-t5" := Rate(0.0, 0.0),
    "HuggingFaceTB/SmolLM3-3B:hf-inference" := Rate(0.0, 0.0),
    "katanemo/Arch-Router-1.5B:hf-inference" := Rate(0.0, 0.0)
  ]

  /** The models the table lists as free. */
  const FreeModels: set<string> := {
    "gemini-1.5-pro", "gemini-1.5-flash", "gemini-pro", "local-t5",
    "HuggingFaceTB/SmolLM3-3B:hf-inference", "katanemo/Arch-Router-1.5B:hf-inference"
  }

  /** The rate applied to `model`: its own table entry, else the zero fallback. */
  function RateOf(model: string): (rate: Rate)
    ensures model !in Rates ==> rate == Rate(0.0, 0.0)
    ensures rate.input >= 0.0 && rate.output >= 0.0
  {
    if model in Rates then Rates[model] else Rate(0.0, 0.0)
  }

  /** `estimateCost(model, inputTokens, outputTokens)`, looking the model up among the table's own entries. */
  function EstimateCost(model: string, inputTokens: real, outputTokens: real): (cost: real)
    ensures model !in Rates || model in FreeModels ==> cost == 0.0
    ensures inputTokens >= 0.0 && outputTokens >= 0.0 ==> cost >= 0.0
  {
    var rate := RateOf(model);
    inputTokens / 1000.0 * rate.input + outputTokens / 1000.0 * rate.output
  }

  /** The cost grows with each token count and is linear in it. */
  lemma EstimateCostMonotone(model: string, in1: real, in2: real, out1: real, out2: real)
    requires in1 <= in2 && out1 <= out2
    ensures EstimateCost(model, in1, out1) <= EstimateCost(model, in2, out2)
    ensures EstimateCost(model, in2, out2) - EstimateCost(model, in1, out1)
            == EstimateCost(model, in2 - in1, out2 - out1)
  {
    var rate := RateOf(model);
    assert (in2 - in1) / 1000.0 * rate.input >= 0.0;
    assert (out2 - out1) / 1000.0 * rate.output >= 0.0;
  }

  /** Names that look like table entries but are not listed cost nothing. */
  lemma UnlistedModelsAreFree(inputTokens: real, outputTokens: real)
    ensures EstimateCost("gpt-4-turbo-preview", inputTokens, outputTokens) == 0.0
    ensures EstimateCost("katanemo/Arch-Router-1.5B", inputTokens, outputTokens) == 0.0
  {
    assert "gpt-4-turbo-preview" !in Rates;
    assert "katanemo/Arch-Router-1.5B" !in Rates;
  }

  /** A thousand tokens each way on gpt-4o: 0.005 + 0.015 dollars. */
  lemma Gpt4oExample()
    ensures EstimateCost("gpt-4o", 1000.0, 1000.0) == 0.02
  {
  }

  /** The cost shown for a note: `estimateCost` as written, with the note's
      estimate used for both input and output. */
  function DisplayedCost(model: string, note: string): (cost: JsNumber)
    ensures model in InheritedNames ==> cost == NaN
    ensures model !in InheritedNames ==>
              cost.Number? && cost.value >= 0.0 &&
              cost.value == (EstimateTokens(note) as real) / 1000.0 * (RateOf(model).input + RateOf(model).output)
    ensures model !in InheritedNames && note == "" ==> cost == Number(0.0)
  {
    EstimateCostAsWritten(model, EstimateTokens(note) as real, EstimateTokens(note) as real)
  }

  // ---------------------------------------------------------------------------
  // The lookup as written.  `rates[model]` on a JavaScript object literal also
  // finds the members every object inherits from Object.prototype; for those
  // names `rates[model]` is a function (or the prototype itself), which is
  // truthy, so the `|| { in: 0, out: 0 }` fallback is skipped and `rate.in`
  // is undefined, making the cost NaN.
  // ---------------------------------------------------------------------------

  /** A JavaScript number as far as this computation needs one. */
  datatype JsNumber = Number(value: real) | NaN

  /** Property names an object literal inherits from Object.prototype. */
  const InheritedNames: set<string> := {
    "constructor", "hasOwnProperty", "isPrototypeOf", "propertyIsEnumerable",
    "toString", "toLocaleString", "valueOf", "__proto__",
    "__defineGetter__", "__defineSetter__", "__lookupGetter__", "__lookupSetter__"
  }

  function EstimateCostAsWritten(model: string, inputTokens: real, outputTokens: real): (cost: JsNumber)
    ensures model !in InheritedNames ==> cost == Number(EstimateCost(model, inputTokens, outputTokens))
    ensures model in InheritedNames ==> cost == NaN
  {
    if model in Rates then Number(EstimateCost(model, inputTokens, outputTokens))
    else if model in InheritedNames then NaN
    else Number(0.0)
  }

  /** The discrepancy: a model called "toString" is priced NaN rather than 0. */
  lemma ToStringCostsNaN()
    ensures EstimateCostAsWritten("toString", 1.0, 1.0) == NaN
    ensures EstimateCost("toString", 1.0, 1.0) == 0.0
  {
  }
}

=== FILE: dashboard.dfy ===
/*
 * The leaderboard computed by the results dashboard
 * (components/ResultsDashboard.tsx): the chart rows with their composite
 * score, the ranking by score, the winner, the per-metric maxima and the
 * best-in-class highlighting.  Only this pure part of the component is
 * modelled; rendering is not.
 *
 * Metric values arrive as JSON numbers.  A field is `None` when it is
 * missing or not a number, so JavaScript's `x || 0` is `GetOr(0.0)` (a
 * present 0 also reads as 0).
 */
module Dashboard {
  import opened Wrappers

  datatype Metrics = Metrics(
    rouge1: Option<real>,
    rougeL: Option<real>,
    bleu: Option<real>,
    semantic: Option<real>,
    lengthRatio: Option<real>)

  /** One model's entry in the results list. */
  datatype EvaluationResult = EvaluationResult(
    modelName: string,
    note: string,
    loading: bool,
    metrics: Option<Metrics>,
    error: Option<string>)

  /** One entry of `chartData`. */
  datatype ChartRow = ChartRow(
    name: string,
    rouge1: real,
    rougeL: real,
    bleu: real,
    semantic: real,
    lengthRatio: real,
    score: real)

  /** The four quality metrics that take part in the score and the highlighting. */
  datatype Metric = Rouge1 | RougeL | Bleu | Semantic

  function Field(m: Metrics, metric: Metric): Option<real> {
    match metric
    case Rouge1 => m.rouge1
    case RougeL => m.rougeL
    case Bleu => m.bleu
    case Semantic => m.semantic
  }

  function ChartValue(row: ChartRow, metric: Metric): real {
    match metric
    case Rouge1 => row.rouge1
    case RougeL => row.rougeL
    case Bleu => row.bleu
    case Semantic => row.semantic
  }

  /** The chart row of a result that has metrics; missing values read as 0. */
  function Row(r: EvaluationResult): (row: ChartRow)
    requires r.metrics.Some?
    ensures row.name == r.modelName
    ensures row.lengthRatio == r.metrics.value.lengthRatio.GetOr(0.0)
    ensures forall metric :: ChartValue(row, metric) == Field(r.metrics.value, metric).GetOr(0.0)
    ensures 4.0 * row.score == ChartValue(row, Rouge1) + ChartValue(row, RougeL)
                             + ChartValue(row, Bleu) + ChartValue(row, Semantic)
  {
    var m := r.metrics.value;
    var r1 := m.rouge1.GetOr(0.0);
    var rl := m.rougeL.GetOr(0.0);
    var b := m.bleu.GetOr(0.0);
    var s := m.semantic.GetOr(0.0);
    ChartRow(r.modelName, r1, rl, b, s, m.lengthRatio.GetOr(0.0), (r1 + rl + b + s) / 4.0)
  }

  /** The length ratio is shown but does not affect the score. */
  lemma ScoreIgnoresLengthRatio(r: EvaluationResult, ratio: Option<real>)
    requires r.metrics.Some?
    ensures var m := r.metrics.value;
            Row(r.(metrics := Some(m.(lengthRatio := ratio)))).score == Row(r).score
  {
  }

  /** `chartData`: the rows of the results that have metrics, in order. */
  function ChartData(results: seq<EvaluationResult>): (chart: seq<ChartRow>)
    ensures |chart| <= |results|
    ensures forall r :: r in results && r.metrics.Some? ==> Row(r) in chart
    ensures forall c :: c in chart ==> exists r :: r in results && r.metrics.Some? && c == Row(r)
    ensures |chart| == 0 <==> forall r :: r in results ==> r.metrics.None?
  {
    if |results| == 0 then []
    else
      var rest := ChartData(results[1..]);
      assert forall r :: r in results[1..] ==> r in results;
      assert forall r :: r in results ==> r == results[0] || r in results[1..];
      if results[0].metrics.Some? then [Row(results[0])] + rest else rest
  }

  /** Rows keep the order of their results: the chart of a concatenation is the concatenation of the charts. */
  lemma {:induction false} ChartDataAppend(a: seq<EvaluationResult>, b: seq<EvaluationResult>)
    ensures ChartData(a + b) == ChartData(a) + ChartData(b)
    decreases |a|
  {
    if |a| == 0 {
      assert a + b == b;
    } else {
      assert (a + b)[0] == a[0];
      assert (a + b)[1..] == a[1..] + b;
      ChartDataAppend(a[1..], b);
    }
  }

  // ---------------------------------------------------------------------------
  // Ranking: `[...chartData].sort((a, b) => b.Score - a.Score)`.  The sort is
  // stable (section 23.1.3.30 of ECMA-262), so it is modelled as a stable
  // insertion sort; the copy leaves `chartData` itself in its original order.
  // ---------------------------------------------------------------------------

  predicate Descending(s: seq<ChartRow>) {
    forall i, j :: 0 <= i < j < |s| ==> s[i].score >= s[j].score
  }

  /** The rows with the given score, in order. */
  function WithScore(s: seq<ChartRow>, v: real): (t: seq<ChartRow>)
    ensures |t| <= |s|
  {
    if |s| == 0 then []
    else (if s[0].score == v then [s[0]] else []) + WithScore(s[1..], v)
  }

  /** Places `x` in front of the first row that does not score more than it. */
  function Insert(x: ChartRow, t: seq<ChartRow>): (r: seq<ChartRow>)
    ensures |r| == |t| + 1
    ensures multiset(r) == multiset(t) + multiset{x}
  {
    if |t| == 0 || t[0].score <= x.score then
      [x] + t
    else
      assert t == [t[0]] + t[1..];
      [t[0]] + Insert(x, t[1..])
  }

  lemma {:induction false} InsertDescending(x: ChartRow, t: seq<ChartRow>)
    requires Descending(t)
    ensures Descending(Insert(x, t))
    decreases |t|
  {
    var r := Insert(x, t);
    if |t| == 0 || t[0].score <= x.score {
      assert forall j :: 1 <= j < |r| ==> r[j] == t[j - 1];
    } else {
      var rest := Insert(x, t[1..]);
      InsertDescending(x, t[1..]);
      forall j | 0 <= j < |rest|
        ensures t[0].score >= rest[j].score
      {
        assert rest[j] in multiset(rest);
        if rest[j] != x {
          assert rest[j] in multiset(t[1..]);
          var k :| 0 <= k < |t[1..]| && t[1..][k] == rest[j];
          assert t[k + 1] == rest[j];
        }
      }
      assert forall j :: 1 <= j < |r| ==> r[j] == rest[j - 1];
    }
  }

  function SortByScore(s: seq<ChartRow>): (sorted: seq<ChartRow>)
    ensures |sorted| == |s|
    ensures multiset(sorted) == multiset(s)
  {
    if |s| == 0 then []
    else
      assert s == [s[0]] + s[1..];
      Insert(s[0], SortByScore(s[1..]))
  }

  /** The ranking runs from the highest score down. */
  lemma {:induction false} SortIsDescending(s: seq<ChartRow>)
    ensures Descending(SortByScore(s))
    decreases |s|
  {
    if |s| > 0 {
      SortIsDescending(s[1..]);
      InsertDescending(s[0], SortByScore(s[1..]));
    }
  }

  lemma WithScoreCons(a: ChartRow, rest: seq<ChartRow>, v: real)
    ensures WithScore([a] + rest, v) == (if a.score == v then [a] else []) + WithScore(rest, v)
  {
    var s := [a] + rest;
    assert s[0] == a && s[1..] == rest;
  }

  lemma {:induction false} InsertWithScore(x: ChartRow, t: seq<ChartRow>, v: real)
    ensures WithScore(Insert(x, t), v) == (if x.score == v then [x] else []) + WithScore(t, v)
    decreases |t|
  {
    if |t| == 0 || t[0].score <= x.score {
      WithScoreCons(x, t, v);
    } else {
      var rest := Insert(x, t[1..]);
      InsertWithScore(x, t[1..], v);
      WithScoreCons(t[0], rest, v);
      WithScoreCons(t[0], t[1..], v);
      assert [t[0]] + t[1..] == t;
    }
  }

  /** Stability: rows with equal scores keep their relative order. */
  lemma {:induction false} SortIsStable(s: seq<ChartRow>, v: real)
    ensures WithScore(SortByScore(s), v) == WithScore(s, v)
    decreases |s|
  {
    if |s| > 0 {
      SortIsStable(s[1..], v);
      InsertWithScore(s[0], SortByScore(s[1..]), v);
    }
  }

  /** Row `k` has the highest score, and every earlier row scores strictly less. */
  predicate IsEarliestBest(s: seq<ChartRow>, k: int) {
    && 0 <= k < |s|
    && (forall j :: 0 <= j < |s| ==> s[j].score <= s[k].score)
    && (forall j :: 0 <= j < k ==> s[j].score < s[k].score)
  }

  lemma {:induction false} SortHeadIsEarliestBest(s: seq<ChartRow>) returns (k: nat)
    requires |s| > 0
    ensures IsEarliestBest(s, k) && SortByScore(s)[0] == s[k]
    decreases |s|
  {
    if |s| == 1 {
      k := 0;
    } else {
      var tail := s[1..];
      var k' := SortHeadIsEarliestBest(tail);
      var t := SortByScore(tail);
      if t[0].score <= s[0].score {
        k := 0;
        assert forall j :: 1 <= j < |s| ==> s[j] == tail[j - 1];
      } else {
        k := k' + 1;
        assert forall j :: 1 <= j < |s| ==> s[j] == tail[j - 1];
      }
    }
  }

  /** `bestModelName`: the name at the head of the ranking, or null (None) when nothing is scored. */
  function BestModelName(chart: seq<ChartRow>): (best: Option<string>)
    ensures best.None? <==> |chart| == 0
  {
    var sorted := SortByScore(chart);
    if |sorted| > 0 then Some(sorted[0].name) else None
  }

  /** The winner is the earliest row with the highest score. */
  lemma BestModelIsEarliestBest(chart: seq<ChartRow>) returns (k: nat)
    requires |chart| > 0
    ensures IsEarliestBest(chart, k) && BestModelName(chart) == Some(chart[k].name)
  {
    k := SortHeadIsEarliestBest(chart);
  }

  /** `isWinner`: the result's model name equals `bestModelName` (never equal to null). */
  predicate IsWinner(r: EvaluationResult, best: Option<string>): (b: bool)
    ensures best.None? ==> !b
    ensures best.Some? ==> (b <==> r.modelName == best.value)
  {
    best == Some(r.modelName)
  }

  /** Without scored results nobody wins; otherwise exactly the results named like the earliest best row win. */
  lemma WinnerOfResults(results: seq<EvaluationResult>)
    ensures var chart := ChartData(results);
            (|chart| == 0 ==> forall r :: !IsWinner(r, BestModelName(chart))) &&
            (|chart| > 0 ==> exists k :: IsEarliestBest(chart, k) &&
                               forall r :: IsWinner(r, BestModelName(chart)) <==> r.modelName == chart[k].name)
  {
    var chart := ChartData(results);
    if |chart| > 0 {
      var k := BestModelIsEarliestBest(chart);
      assert forall r :: IsWinner(r, BestModelName(chart)) <==> r.modelName == chart[k].name;
    }
  }

  // ---------------------------------------------------------------------------
  // Per-metric maxima: `Math.max(...values)`, which is -Infinity for no values.
  // ---------------------------------------------------------------------------

  datatype Extended = NegInfinity | Finite(value: real)

  function MaxOf(xs: seq<real>): (m: Extended)
    ensures m.NegInfinity? <==> |xs| == 0
    ensures forall i :: 0 <= i < |xs| ==> m.Finite? && xs[i] <= m.value
    ensures |xs| > 0 ==> exists i :: 0 <= i < |xs| && xs[i] == m.value
  {
    if |xs| == 0 then NegInfinity
    else
      var rest := MaxOf(xs[1..]);
      assert forall i :: 1 <= i < |xs| ==> xs[i] == xs[1..][i - 1];
      if rest.NegInfinity? || xs[0] >= rest.value then Finite(xs[0]) else rest
  }

  function Column(chart: seq<ChartRow>, metric: Metric): (col: seq<real>)
    ensures |col| == |chart|
    ensures forall i :: 0 <= i < |chart| ==> col[i] == ChartValue(chart[i], metric)
  {
    if |chart| == 0 then [] else [ChartValue(chart[0], metric)] + Column(chart[1..], metric)
  }

  /** `maxR1`, `maxRL`, `maxBleu`, `maxSim`. */
  function MaxMetric(chart: seq<ChartRow>, metric: Metric): (max: Extended)
    ensures max.NegInfinity? <==> |chart| == 0
    ensures forall i :: 0 <= i < |chart| ==> max.Finite? && ChartValue(chart[i], metric) <= max.value
    ensures |chart| > 0 ==> exists i :: 0 <= i < |chart| && ChartValue(chart[i], metric) == max.value
  {
    MaxOf(Column(chart, metric))
  }

  /** `isBestR1` and its siblings: the raw field equals the maximum and the maximum is positive. */
  predicate IsBest(r: EvaluationResult, metric: Metric, max: Extended): (b: bool)
    ensures b ==> r.metrics.Some? && max.Finite? && Field(r.metrics.value, metric).GetOr(0.0) == max.value
    // The `> 0` guard: a maximum of 0 (or -Infinity) highlights nobody.
    ensures !(max.Finite? && max.value > 0.0) ==> !b
  {
    && r.metrics.Some?
    && max.Finite?
    && Field(r.metrics.value, metric) == Some(max.value)
    && max.value > 0.0
  }

  /** No scored result exceeds the column's maximum. */
  lemma MaxBoundsScoredResults(results: seq<EvaluationResult>, metric: Metric, q: EvaluationResult)
    requires q in results && q.metrics.Some?
    ensures var max := MaxMetric(ChartData(results), metric);
            max.Finite? && Field(q.metrics.value, metric).GetOr(0.0) <= max.value
  {
    var chart := ChartData(results);
    var col := Column(chart, metric);
    var i :| 0 <= i < |chart| && chart[i] == Row(q);
    assert col[i] == ChartValue(Row(q), metric);
  }

  /** A positive maximum is reached by the raw field of some result. */
  lemma PositiveMaxIsAttained(results: seq<EvaluationResult>, metric: Metric) returns (r: EvaluationResult)
    requires var max := MaxMetric(ChartData(results), metric); max.Finite? && max.value > 0.0
    ensures r in results && IsBest(r, metric, MaxMetric(ChartData(results), metric))
  {
    var chart := ChartData(results);
    var max := MaxMetric(chart, metric);
    var i :| 0 <= i < |chart| && ChartValue(chart[i], metric) == max.value;
    r := RowSource(results, chart[i]);
    assert ChartValue(Row(r), metric) == Field(r.metrics.value, metric).GetOr(0.0);
    assert Field(r.metrics.value, metric) == Some(max.value);
  }

  /** Every chart row comes from a scored result. */
  lemma RowSource(results: seq<EvaluationResult>, c: ChartRow) returns (r: EvaluationResult)
    requires c in ChartData(results)
    ensures r in results && r.metrics.Some? && c == Row(r)
  {
    r :| r in results && r.metrics.Some? && c == Row(r);
  }

  /**
   * Some result is highlighted iff the column's maximum is positive, and a
   * highlighted result is at least as good as every scored result.
   */
  lemma BestInClass(results: seq<EvaluationResult>, metric: Metric)
    ensures var max := MaxMetric(ChartData(results), metric);
            (exists r :: r in results && IsBest(r, metric, max)) <==> max.Finite? && max.value > 0.0
    ensures var max := MaxMetric(ChartData(results), metric);
            forall r, q :: r in results && IsBest(r, metric, max) && q in results && q.metrics.Some? ==>
              Field(q.metrics.value, metric).GetOr(0.0) <= Field(r.metrics.value, metric).value
  {
    var max := MaxMetric(ChartData(results), metric);
    if max.Finite? && max.value > 0.0 {
      var r := PositiveMaxIsAttained(results, metric);
    }
    forall q | q in results && q.metrics.Some?
      ensures max.Finite? && Field(q.metrics.value, metric).GetOr(0.0) <= max.value
    {
      MaxBoundsScoredResults(results, metric, q);
    }
  }

  /** An empty results list leaves every maximum at -Infinity, so nothing is highlighted. */
  lemma NoResultsNoMaximum(metric: Metric)
    ensures MaxMetric(ChartData([]), metric) == NegInfinity
  {
  }
}

=== FILE: eval.dfy ===
/** Lexical overlap scoring and the metric record of the evaluation engine:
    tokenisation, ROUGE-1 (membership overlap), ROUGE-L (longest common
    subsequence, computed with a dynamic-programming table) and the length
    ratio.  BLEU and the embedding similarity come from foreign packages and
    enter as values. */
module Eval {
  import opened Wrappers
  import opened JsText
  import opened Quotients

  type Tokens = seq<string>

  /** `text.toLowerCase().split(/\s+/)`.  The host's Unicode case mapping is
      the parameter `lower`. */
  function Tokenize(text: string, lower: string -> string): (tokens: Tokens)
    ensures |tokens| >= 1
  {
    Split(lower(text))
  }

  // ---------------------------------------------------------------- ROUGE-1

  /** `gen.filter(t => ref.includes(t))`: every generated token, with its
      multiplicity, that occurs anywhere in the reference. */
  function Intersection(gen: Tokens, ref: Tokens): (common: Tokens)
    ensures |common| <= |gen|
    ensures forall t :: multiset(common)[t] == if t in ref then multiset(gen)[t] else 0
  {
    if |gen| == 0 then []
    else
      var last := gen[|gen| - 1];
      var rest := Intersection(gen[..|gen| - 1], ref);
      assert gen == gen[..|gen| - 1] + [last];
      if last in ref then rest + [last] else rest
  }

  // ---------------------------------------------------------------- ROUGE-L

  function Max(a: nat, b: nat): nat {
    if a >= b then a else b
  }

  /** The textbook recurrence for the length of a longest common subsequence
      of the prefixes `a[..i]` and `b[..j]`. */
  function LcsPrefix(a: Tokens, b: Tokens, i: nat, j: nat): nat
    requires i <= |a| && j <= |b|
    decreases i + j
  {
    if i == 0 || j == 0 then 0
    else if a[i - 1] == b[j - 1] then LcsPrefix(a, b, i - 1, j - 1) + 1
    else Max(LcsPrefix(a, b, i - 1, j), LcsPrefix(a, b, i, j - 1))
  }

  function Lcs(a: Tokens, b: Tokens): nat {
    LcsPrefix(a, b, |a|, |b|)
  }

  /** `c` is obtained from `s` by deleting elements: either the last element of
      `c` is matched with the last element of `s`, or the last element of `s`
      is skipped. */
  predicate IsSubsequence(c: Tokens, s: Tokens)
    decreases |s|
  {
    || |c| == 0
    || (&& |s| > 0
        && (|| (c[|c| - 1] == s[|s| - 1] && IsSubsequence(c[..|c| - 1], s[..|s| - 1]))
            || IsSubsequence(c, s[..|s| - 1])))
  }

  predicate IsCommonSubsequence(c: Tokens, a: Tokens, b: Tokens) {
    IsSubsequence(c, a) && IsSubsequence(c, b)
  }

  lemma {:induction false} SubsequenceDropLast(c: Tokens, s: Tokens)
    requires |c| > 0 && IsSubsequence(c, s)
    ensures IsSubsequence(c[..|c| - 1], s)
    decreases |s|
  {
    var c' := c[..|c| - 1];
    if |c'| > 0 {
      if c[|c| - 1] == s[|s| - 1] && IsSubsequence(c', s[..|s| - 1]) {
      } else {
        SubsequenceDropLast(c, s[..|s| - 1]);
      }
    }
  }

  lemma {:induction false} SubsequenceLength(c: Tokens, s: Tokens)
    requires IsSubsequence(c, s)
    ensures |c| <= |s|
    decreases |s|
  {
    if |c| > 0 {
      if c[|c| - 1] == s[|s| - 1] && IsSubsequence(c[..|c| - 1], s[..|s| - 1]) {
        SubsequenceLength(c[..|c| - 1], s[..|s| - 1]);
      } else {
        SubsequenceLength(c, s[..|s| - 1]);
      }
    }
  }

  lemma {:induction false} SubsequenceMembers(c: Tokens, s: Tokens)
    requires IsSubsequence(c, s)
    ensures forall t :: t in c ==> t in s
    decreases |s|
  {
    if |c| > 0 {
      var c', s' := c[..|c| - 1], s[..|s| - 1];
      assert c == c' + [c[|c| - 1]];
      assert s == s' + [s[|s| - 1]];
      if c[|c| - 1] == s[|s| - 1] && IsSubsequence(c', s') {
        SubsequenceMembers(c', s');
      } else {
        SubsequenceMembers(c, s');
      }
    }
  }

  lemma {:induction false} SubsequenceOfItself(s: Tokens)
    ensures IsSubsequence(s, s)
    decreases |s|
  {
    if |s| > 0 {
      SubsequenceOfItself(s[..|s| - 1]);
    }
  }

  /** No common subsequence of `a[..i]` and `b[..j]` is longer than `LcsPrefix`. */
  lemma {:induction false} LcsPrefixIsUpperBound(a: Tokens, b: Tokens, i: nat, j: nat, c: Tokens)
    requires i <= |a| && j <= |b|
    requires IsCommonSubsequence(c, a[..i], b[..j])
    ensures |c| <= LcsPrefix(a, b, i, j)
    decreases i + j
  {
    if |c| == 0 {
      return;
    }
    var c' := c[..|c| - 1];
    var x := c[|c| - 1];
    assert a[..i][..i - 1] == a[..i - 1];
    assert b[..j][..j - 1] == b[..j - 1];
    var matchA := x == a[i - 1] && IsSubsequence(c', a[..i - 1]);
    var matchB := x == b[j - 1] && IsSubsequence(c', b[..j - 1]);
    assert matchA || IsSubsequence(c, a[..i - 1]);
    assert matchB || IsSubsequence(c, b[..j - 1]);
    if a[i - 1] == b[j - 1] {
      if !matchA {
        SubsequenceDropLast(c, a[..i - 1]);
      }
      if !matchB {
        SubsequenceDropLast(c, b[..j - 1]);
      }
      LcsPrefixIsUpperBound(a, b, i - 1, j - 1, c');
    } else if !matchA {
      LcsPrefixIsUpperBound(a, b, i - 1, j, c);
    } else {
      LcsPrefixIsUpperBound(a, b, i, j - 1, c);
    }
  }

  /** `LcsPrefix` is attained: some common subsequence has exactly that length. */
  lemma {:induction false} LcsPrefixIsAttained(a: Tokens, b: Tokens, i: nat, j: nat) returns (c: Tokens)
    requires i <= |a| && j <= |b|
    ensures IsCommonSubsequence(c, a[..i], b[..j])
    ensures |c| == LcsPrefix(a, b, i, j)
    decreases i + j
  {
    if i == 0 || j == 0 {
      c := [];
      return;
    }
    assert a[..i][..i - 1] == a[..i - 1];
    assert b[..j][..j - 1] == b[..j - 1];
    if a[i - 1] == b[j - 1] {
      var c' := LcsPrefixIsAttained(a, b, i - 1, j - 1);
      c := c' + [a[i - 1]];
      assert c[..|c| - 1] == c';
    } else if LcsPrefix(a, b, i - 1, j) >= LcsPrefix(a, b, i, j - 1) {
      c := LcsPrefixIsAttained(a, b, i - 1, j);
    } else {
      c := LcsPrefixIsAttained(a, b, i, j - 1);
    }
  }

  /** `Lcs` is the length of a longest common subsequence: one of that length
      exists and none is longer. */
  lemma LcsIsLongestCommonSubsequence(a: Tokens, b: Tokens)
    ensures exists c :: IsCommonSubsequence(c, a, b) && |c| == Lcs(a, b)
    ensures forall c :: IsCommonSubsequence(c, a, b) ==> |c| <= Lcs(a, b)
  {
    assert a[..|a|] == a && b[..|b|] == b;
    var w := LcsPrefixIsAttained(a, b, |a|, |b|);
    forall c | IsCommonSubsequence(c, a, b)
      ensures |c| <= Lcs(a, b)
    {
      LcsPrefixIsUpperBound(a, b, |a|, |b|, c);
    }
  }

  /** The LCS never exceeds either sequence. */
  lemma LcsBounds(a: Tokens, b: Tokens)
    ensures Lcs(a, b) <= |a| && Lcs(a, b) <= |b|
  {
    assert a[..|a|] == a && b[..|b|] == b;
    var w := LcsPrefixIsAttained(a, b, |a|, |b|);
    SubsequenceLength(w, a);
    SubsequenceLength(w, b);
  }

  lemma LcsOfItself(a: Tokens)
    ensures Lcs(a, a) == |a|
  {
    SubsequenceOfItself(a);
    LcsIsLongestCommonSubsequence(a, a);
    LcsBounds(a, a);
  }

  /** A subsequence of `gen` made of reference tokens is no longer than the ROUGE-1 intersection. */
  lemma {:induction false} SubsequenceWithinIntersection(c: Tokens, gen: Tokens, ref: Tokens)
    requires IsSubsequence(c, gen)
    requires forall t :: t in c ==> t in ref
    ensures |c| <= |Intersection(gen, ref)|
    decreases |gen|
  {
    if |c| > 0 {
      var c', gen' := c[..|c| - 1], gen[..|gen| - 1];
      assert c == c' + [c[|c| - 1]];
      if c[|c| - 1] == gen[|gen| - 1] && IsSubsequence(c', gen') {
        SubsequenceWithinIntersection(c', gen', ref);
      } else {
        SubsequenceWithinIntersection(c, gen', ref);
      }
    }
  }

  /** The LCS is at most the ROUGE-1 intersection, so ROUGE-L never exceeds ROUGE-1. */
  lemma LcsAtMostIntersection(gen: Tokens, ref: Tokens)
    ensures Lcs(gen, ref) <= |Intersection(gen, ref)|
  {
    assert gen[..|gen|] == gen && ref[..|ref|] == ref;
    var w := LcsPrefixIsAttained(gen, ref, |gen|, |ref|);
    SubsequenceMembers(w, ref);
    SubsequenceWithinIntersection(w, gen, ref);
  }

  /** The `lcs` closure: a `(m+1)×(n+1)` table filled row by row, `dp[0][*]` and
      `dp[*][0]` left at 0. */
  method LcsTable(a: Tokens, b: Tokens) returns (length: nat)
    ensures length == Lcs(a, b)
  {
    var m, n := |a|, |b|;
    var dp := new nat[m + 1, n + 1]((_, _) => 0);
    var i := 1;
    while i <= m
      invariant 1 <= i <= m + 1
      invariant forall r, c {:trigger dp[r, c]} :: 0 <= r < i && 0 <= c <= n ==> dp[r, c] == LcsPrefix(a, b, r, c)
      invariant forall r :: i <= r <= m ==> dp[r, 0] == 0
    {
      var j := 1;
      while j <= n
        invariant 1 <= j <= n + 1
        invariant forall r, c {:trigger dp[r, c]} :: 0 <= r < i && 0 <= c <= n ==> dp[r, c] == LcsPrefix(a, b, r, c)
        invariant forall c {:trigger dp[i, c]} :: 0 <= c < j ==> dp[i, c] == LcsPrefix(a, b, i, c)
        invariant forall r :: i < r <= m ==> dp[r, 0] == 0
      {
        var v: nat;
        if a[i - 1] == b[j - 1] {
          v := dp[i - 1, j - 1] + 1;
        } else {
          v := Max(dp[i - 1, j], dp[i, j - 1]);
        }
        assert v == LcsPrefix(a, b, i, j);
        dp[i, j] := v;
        j := j + 1;
      }
      i := i + 1;
    }
    length := dp[m, n];
  }

  // ---------------------------------------------------------------- F1

  /** `(2 * precision * recall) / (precision + recall) || 0`: when the sum is 0
      the quotient is NaN, and `|| 0` reads NaN (and 0) as 0. */
  function F1(precision: real, recall: real): (f: real)
    ensures precision + recall == 0.0 ==> f == 0.0
    ensures precision + recall != 0.0 ==> f * (precision + recall) == 2.0 * precision * recall
    // The harmonic mean lies between precision and recall.
    ensures 0.0 <= precision <= recall ==> precision <= f <= recall
    ensures 0.0 <= recall <= precision ==> recall <= f <= precision
  {
    if precision + recall == 0.0 then 0.0
    else
      var f := 2.0 * precision * recall / (precision + recall);
      QuotientTimesDivisor(2.0 * precision * recall, precision + recall);
      assert 0.0 <= precision <= recall ==> precision <= f <= recall by {
        if 0.0 <= precision <= recall {
          HarmonicMeanBetween(precision, recall);
        }
      }
      assert 0.0 <= recall <= precision ==> recall <= f <= precision by {
        if 0.0 <= recall <= precision {
          HarmonicMeanBetween(recall, precision);
          assert 2.0 * recall * precision == 2.0 * precision * recall;
          assert recall + precision == precision + recall;
        }
      }
      f
  }

  /** `lo <= 2·lo·hi/(lo + hi) <= hi` for `0 <= lo <= hi`, not both 0. */
  lemma HarmonicMeanBetween(lo: real, hi: real)
    requires 0.0 <= lo <= hi && lo + hi != 0.0
    ensures lo <= 2.0 * lo * hi / (lo + hi) <= hi
  {
    var s := lo + hi;
    assert lo * lo <= lo * hi by { MulMonotone(lo, hi, lo); }
    assert lo * hi <= hi * hi by { MulMonotone(lo, hi, hi); }
    assert lo * s == lo * lo + lo * hi;
    assert hi * s == lo * hi + hi * hi;
    QuotientAtLeast(2.0 * lo * hi, s, lo);
    QuotientAtMost(2.0 * lo * hi, s, hi);
  }

  lemma MulMonotone(a: real, b: real, c: real)
    requires a <= b && c >= 0.0
    ensures a * c <= b * c
  {
  }

  /** F1 of `matches` counted against `genLen` generated and `refLen` reference
      tokens (precision = matches/genLen, recall = matches/refLen).  It is the
      Dice coefficient `2·matches/(genLen + refLen)`. */
  function OverlapF1(matches: nat, genLen: nat, refLen: nat): (f: real)
    requires genLen > 0 && refLen > 0
    ensures f == 2.0 * matches as real / (genLen + refLen) as real
  {
    DiceForm(matches as real, genLen as real, refLen as real);
    F1(matches as real / genLen as real, matches as real / refLen as real)
  }

  lemma DiceForm(m: real, g: real, r: real)
    requires m >= 0.0 && g > 0.0 && r > 0.0
    ensures F1(m / g, m / r) == 2.0 * m / (g + r)
  {
    var p, q := m / g, m / r;
    if m > 0.0 {
      DiceCross(m, g, r, p, q);
      CrossMultiply(2.0 * p * q, p + q, 2.0 * m, g + r);
    }
  }

  /** The cross-multiplied form of `DiceForm`: `2pq·(g + r) == 2m·(p + q)`. */
  lemma DiceCross(m: real, g: real, r: real, p: real, q: real)
    requires m > 0.0 && g > 0.0 && r > 0.0 && p == m / g && q == m / r
    ensures p + q > 0.0
    ensures 2.0 * p * q * (g + r) == 2.0 * m * (p + q)
  {
    assert p * g == m && q * r == m;
    calc {
      2.0 * p * q * (g + r);
      2.0 * (p * g) * q + 2.0 * p * (q * r);
      2.0 * m * q + 2.0 * p * m;
    }
  }

  lemma CrossMultiply(x: real, y: real, u: real, v: real)
    requires y != 0.0 && v != 0.0 && x * v == u * y
    ensures x / y == u / v
  {
    assert x / y == (x * v) / (y * v);
    assert u / v == (u * y) / (v * y);
  }

  lemma OverlapF1Bounds(matches: nat, genLen: nat, refLen: nat)
    requires genLen > 0 && refLen > 0
    ensures 0.0 <= OverlapF1(matches, genLen, refLen)
    ensures OverlapF1(matches, genLen, refLen) == 0.0 <==> matches == 0
    ensures matches <= genLen && matches <= refLen ==> OverlapF1(matches, genLen, refLen) <= 1.0
    ensures matches <= genLen ==> OverlapF1(matches, genLen, refLen) < 2.0
    ensures matches == genLen == refLen ==> OverlapF1(matches, genLen, refLen) == 1.0
  {
    QuotientFacts(2.0 * matches as real, (genLen + refLen) as real);
  }

  lemma OverlapF1Monotone(m1: nat, m2: nat, genLen: nat, refLen: nat)
    requires genLen > 0 && refLen > 0 && m1 <= m2
    ensures OverlapF1(m1, genLen, refLen) <= OverlapF1(m2, genLen, refLen)
  {
    QuotientMonotone(2.0 * m1 as real, 2.0 * m2 as real, (genLen + refLen) as real);
  }

  // ---------------------------------------------------------------- scores

  datatype RougeScores = RougeScores(rouge1: real, rougeL: real)

  /** `calculateRouge` on token sequences, which the tokenizer never leaves empty. */
  function Rouge(gen: Tokens, ref: Tokens): (scores: RougeScores)
    requires |gen| > 0 && |ref| > 0
    // Both F1 values are Dice coefficients over the token counts.
    ensures scores.rouge1 == 2.0 * |Intersection(gen, ref)| as real / (|gen| + |ref|) as real
    ensures scores.rougeL == 2.0 * Lcs(gen, ref) as real / (|gen| + |ref|) as real
  {
    RougeScores(OverlapF1(|Intersection(gen, ref)|, |gen|, |ref|),
                OverlapF1(Lcs(gen, ref), |gen|, |ref|))
  }

  /** ROUGE-L lies in [0,1] and never exceeds ROUGE-1, which stays below 2. */
  lemma RougeBounds(gen: Tokens, ref: Tokens)
    requires |gen| > 0 && |ref| > 0
    ensures 0.0 <= Rouge(gen, ref).rougeL <= Rouge(gen, ref).rouge1 < 2.0
    ensures Rouge(gen, ref).rougeL <= 1.0
  {
    LcsBounds(gen, ref);
    LcsAtMostIntersection(gen, ref);
    OverlapF1Bounds(Lcs(gen, ref), |gen|, |ref|);
    OverlapF1Bounds(|Intersection(gen, ref)|, |gen|, |ref|);
    OverlapF1Monotone(Lcs(gen, ref), |Intersection(gen, ref)|, |gen|, |ref|);
  }

  /** Identical token sequences score 1 on both metrics. */
  lemma RougeOfIdenticalTokens(tokens: Tokens)
    requires |tokens| > 0
    ensures Rouge(tokens, tokens) == RougeScores(1.0, 1.0)
  {
    var common := Intersection(tokens, tokens);
    assert multiset(common) == multiset(tokens);
    assert |common| == |multiset(common)| == |multiset(tokens)| == |tokens|;
    LcsOfItself(tokens);
    OverlapF1Bounds(|tokens|, |tokens|, |tokens|);
  }

  predicate ShareToken(gen: Tokens, ref: Tokens) {
    exists k :: 0 <= k < |gen| && gen[k] in ref
  }

  /** Each score is 0 exactly when no generated token occurs in the reference. */
  lemma RougeZeroIffNothingShared(gen: Tokens, ref: Tokens)
    requires |gen| > 0 && |ref| > 0
    ensures Rouge(gen, ref).rouge1 == 0.0 <==> !ShareToken(gen, ref)
    ensures Rouge(gen, ref).rougeL == 0.0 <==> !ShareToken(gen, ref)
  {
    var common := Intersection(gen, ref);
    OverlapF1Bounds(|common|, |gen|, |ref|);
    OverlapF1Bounds(Lcs(gen, ref), |gen|, |ref|);
    LcsAtMostIntersection(gen, ref);
    if k :| 0 <= k < |gen| && gen[k] in ref {
      var t := gen[k];
      assert multiset(common)[t] > 0;
      SingletonSubsequence(t, gen, k);
      SingletonSubsequence(t, ref, IndexOf(ref, t));
      LcsIsLongestCommonSubsequence(gen, ref);
    } else {
      assert forall t :: t in ref ==> t !in gen;
      assert forall t :: multiset(common)[t] == 0;
      assert multiset(common) == multiset{};
    }
  }

  function IndexOf(s: Tokens, t: string): (k: nat)
    requires t in s
    ensures k < |s| && s[k] == t
  {
    if s[0] == t then 0 else 1 + IndexOf(s[1..], t)
  }

  lemma {:induction false} SingletonSubsequence(t: string, s: Tokens, k: nat)
    requires k < |s| && s[k] == t
    ensures IsSubsequence([t], s)
    decreases |s|
  {
    var s' := s[..|s| - 1];
    if k < |s| - 1 {
      SingletonSubsequence(t, s', k);
    } else {
      assert [t][..0] == [];
    }
  }

  /** `calculateRouge` as the source computes it; `evaluateAll` calls it.
      `RougeWords` below is the scorer with the empty tokens dropped. */
  method CalculateRouge(generated: string, reference: string, lower: string -> string)
    returns (scores: RougeScores)
    ensures scores == Rouge(Tokenize(generated, lower), Tokenize(reference, lower))
    ensures 0.0 <= scores.rougeL <= scores.rouge1 < 2.0 && scores.rougeL <= 1.0
  {
    var genTokens := Tokenize(generated, lower);
    var refTokens := Tokenize(reference, lower);
    var common := Intersection(genTokens, refTokens);
    var lcsScore := LcsTable(genTokens, refTokens);
    scores := RougeScores(OverlapF1(|common|, |genTokens|, |refTokens|),
                          OverlapF1(lcsScore, |genTokens|, |refTokens|));
    RougeBounds(genTokens, refTokens);
  }

  /** With the membership count, recall (and so ROUGE-1) can exceed 1: "a a a"
      against "a" has 3 matches, precision 1, recall 3 and F1 3/2. */
  lemma Rouge1CanExceedOne()
    ensures Rouge(["a", "a", "a"], ["a"]).rouge1 == 1.5
  {
    var gen: Tokens := ["a", "a", "a"];
    var common := Intersection(gen, ["a"]);
    assert multiset(common)["a"] == 3;
    assert |common| == 3 by {
      assert forall t :: t != "a" ==> multiset(common)[t] == 0;
      assert multiset(common) == multiset{"a", "a", "a"};
    }
  }

  /** Empty tokens from leading or trailing whitespace count as matches: two
      notes that share no word but both end in a newline score 1/2. */
  lemma TrailingNewlineScoresHalf(generated: string, reference: string, lower: string -> string)
    requires generated == "hello\n" && lower(generated) == generated
    requires reference == "world\n" && lower(reference) == reference
    ensures Rouge(Tokenize(generated, lower), Tokenize(reference, lower)) == RougeScores(0.5, 0.5)
  {
    TrailingNewlineTokens(generated, "hello", lower);
    TrailingNewlineTokens(reference, "world", lower);
    EmptyTokenIsTheOnlyMatch("hello", "world");
  }

  lemma TrailingNewlineTokens(text: string, w: string, lower: string -> string)
    requires |w| > 0 && NoWhitespace(w) && text == w + "\n" && lower(text) == text
    ensures Tokenize(text, lower) == [w, ""]
  {
    SplitTwoWords(w);
  }

  lemma EmptyTokenIsTheOnlyMatch(w1: string, w2: string)
    requires w1 != w2 && w1 != "" && w2 != ""
    ensures Rouge([w1, ""], [w2, ""]) == RougeScores(0.5, 0.5)
  {
    var gen: Tokens := [w1, ""];
    var ref: Tokens := [w2, ""];
    assert gen[..1] == [w1] && [w1][..0] == [];
    assert Intersection(gen, ref) == [""];
    assert Lcs(gen, ref) == 1 by {
      LcsAtMostIntersection(gen, ref);
      SingletonSubsequence("", gen, 1);
      SingletonSubsequence("", ref, 1);
      LcsIsLongestCommonSubsequence(gen, ref);
    }
  }

  /** "patient reports mild headache" against "patient reports headache":
      three of the four generated tokens occur in the reference (precision 3/4,
      recall 1) and the LCS is 3, so both scores are 6/7. */
  lemma WorkedExample(generated: string, reference: string, lower: string -> string)
    requires generated == "patient reports mild headache" && lower(generated) == generated
    requires reference == "patient reports headache" && lower(reference) == reference
    ensures Rouge(Tokenize(generated, lower), Tokenize(reference, lower)) == RougeScores(6.0 / 7.0, 6.0 / 7.0)
  {
    var gen := ExampleGeneratedTokens(generated);
    var ref := ExampleReferenceTokens(reference);
    WorkedExampleCounts(gen, ref);
    WorkedExampleScores(gen, ref);
  }

  lemma ExampleGeneratedTokens(text: string) returns (tokens: Tokens)
    requires text == "patient reports mild headache"
    ensures tokens == ["patient", "reports", "mild", "headache"] && Split(text) == tokens
  {
    tokens := ["patient", "reports", "mild", "headache"];
    WordsRoundTrip(tokens, text);
  }

  lemma ExampleReferenceTokens(text: string) returns (tokens: Tokens)
    requires text == "patient reports headache"
    ensures tokens == ["patient", "reports", "headache"] && Split(text) == tokens
  {
    tokens := ["patient", "reports", "headache"];
    WordsRoundTrip(tokens, text);
  }

  lemma WordsRoundTrip(words: Tokens, text: string)
    requires |words| >= 1 && JoinWithSpaces(words) == text
    requires forall k :: 0 <= k < |words| ==> words[k] != "" && NoWhitespace(words[k])
    ensures Split(text) == words
  {
    SplitJoinRoundTrip(words);
  }

  lemma WorkedExampleScores(gen: Tokens, ref: Tokens)
    requires |gen| == 4 && |ref| == 3
    requires |Intersection(gen, ref)| == 3 && Lcs(gen, ref) == 3
    ensures Rouge(gen, ref) == RougeScores(6.0 / 7.0, 6.0 / 7.0)
  {
  }

  lemma WorkedExampleCounts(gen: Tokens, ref: Tokens)
    requires gen == ["patient", "reports", "mild", "headache"]
    requires ref == ["patient", "reports", "headache"]
    ensures |Intersection(gen, ref)| == 3
    ensures Lcs(gen, ref) == 3
  {
    var g3, g2, g1 := gen[..3], gen[..3][..2], gen[..3][..2][..1];
    assert g3 == ["patient", "reports", "mild"];
    assert g2 == ["patient", "reports"];
    assert g1 == ["patient"] && g1[..0] == [];
    assert |Intersection(gen, ref)| == 3;
    LcsBounds(gen, ref);
    SubsequenceOfItself(ref);
    SubsequenceOfItself(g2);
    assert ref[..2] == g2;
    assert IsSubsequence(g2, g3);
    assert IsSubsequence(ref, gen);
    LcsIsLongestCommonSubsequence(gen, ref);
  }

  lemma SplitTwoWords(w: string)
    requires |w| > 0 && NoWhitespace(w)
    ensures Split(w + "\n") == [w, ""]
  {
    var s := w + "\n";
    WordEndOfWord(w, "\n");
    assert RunEnd(s, |w|) == |w| + 1;
    assert s[..|w|] == w;
    assert s[|w| + 1..] == "";
  }

  // ---------------------------------------------------------------- corrected scorer

  /** The words of a text: the tokens of `Tokenize` without the empty strings
      that leading or trailing whitespace (or an empty text) produce. */
  function Words(text: string, lower: string -> string): (words: Tokens)
    ensures forall k :: 0 <= k < |words| ==> words[k] != "" && NoWhitespace(words[k])
  {
    SplitTokensHaveNoWhitespace(lower(text));
    NonEmpty(Tokenize(text, lower))
  }

  function NonEmpty(tokens: Tokens): (r: Tokens)
    ensures forall k :: 0 <= k < |r| ==> r[k] != "" && r[k] in tokens
    ensures forall k :: 0 <= k < |tokens| && tokens[k] != "" ==> tokens[k] in r
    ensures (forall k :: 0 <= k < |tokens| ==> tokens[k] != "") ==> r == tokens
    // Exactly the non-empty tokens, each as often as it occurs.
    ensures multiset(r) == multiset(tokens)["" := 0]
  {
    if |tokens| == 0 then []
    else
      var rest := NonEmpty(tokens[1..]);
      assert tokens == [tokens[0]] + tokens[1..];
      DropEmptyStep(tokens[0], tokens[1..], rest);
      if tokens[0] == "" then rest else [tokens[0]] + rest
  }

  /** One step of `NonEmpty`'s count: a leading token adds one to its own count unless it is empty. */
  lemma DropEmptyStep(x: string, xs: Tokens, rest: Tokens)
    requires multiset(rest) == multiset(xs)["" := 0]
    ensures multiset([x] + xs)["" := 0] == if x == "" then multiset(rest) else multiset([x] + rest)
  {
    assert multiset([x] + xs) == multiset{x} + multiset(xs);
    assert multiset([x] + rest) == multiset{x} + multiset(rest);
  }

  /** Dropping the empty tokens keeps the order of the rest. */
  lemma {:induction false} NonEmptyAppend(a: Tokens, b: Tokens)
    ensures NonEmpty(a + b) == NonEmpty(a) + NonEmpty(b)
    decreases |a|
  {
    if |a| == 0 {
      assert a + b == b;
    } else {
      assert (a + b)[0] == a[0];
      assert (a + b)[1..] == a[1..] + b;
      NonEmptyAppend(a[1..], b);
    }
  }

  /** ROUGE over words, with the `f1 = 0` rule for an empty side. */
  function RougeWords(gen: Tokens, ref: Tokens): RougeScores {
    if |gen| == 0 || |ref| == 0 then RougeScores(0.0, 0.0) else Rouge(gen, ref)
  }

  /** Corrected scorer: no shared word gives 0 on both metrics, and conversely.
      Stated for any token lists, so in particular for `Words` of two texts. */
  lemma RougeWordsZeroIffNothingShared(gen: Tokens, ref: Tokens)
    ensures RougeWords(gen, ref) == RougeScores(0.0, 0.0) <==> !ShareToken(gen, ref)
  {
    if |gen| > 0 && |ref| > 0 {
      RougeZeroIffNothingShared(gen, ref);
    }
  }

  /** Corrected scorer: bounds, and 1 on both metrics for identical non-empty word lists. */
  lemma RougeWordsProperties(gen: Tokens, ref: Tokens)
    ensures var r := RougeWords(gen, ref);
      0.0 <= r.rougeL <= r.rouge1 < 2.0 && r.rougeL <= 1.0
    ensures gen == ref && |gen| > 0 ==> RougeWords(gen, ref) == RougeScores(1.0, 1.0)
  {
    if |gen| > 0 && |ref| > 0 {
      RougeBounds(gen, ref);
      if gen == ref {
        RougeOfIdenticalTokens(gen);
      }
    }
  }

  /** On a lower-cased text that is non-empty and has no leading or trailing
      whitespace, the corrected scorer agrees with the source. */
  lemma RougeWordsAgreesOnTrimmedText(generated: string, reference: string, lower: string -> string)
    requires Trimmed(lower(generated)) && Trimmed(lower(reference))
    ensures RougeWords(Words(generated, lower), Words(reference, lower))
         == Rouge(Tokenize(generated, lower), Tokenize(reference, lower))
  {
    TrimmedHasNoEmptyToken(lower(generated));
    TrimmedHasNoEmptyToken(lower(reference));
  }

  predicate Trimmed(s: string) {
    |s| > 0 && !IsWhitespace(s[0]) && !IsWhitespace(s[|s| - 1])
  }

  lemma TrimmedHasNoEmptyToken(s: string)
    requires Trimmed(s)
    ensures forall k :: 0 <= k < |Split(s)| ==> Split(s)[k] != ""
  {
    SplitFirstTokenNonEmpty(s);
    SplitInnerTokensNonEmpty(s);
    SplitLastTokenEmptyIff(s);
  }

  /** The corrected `calculateRouge`: the same table-driven LCS, over words. */
  method CalculateRougeWords(generated: string, reference: string, lower: string -> string)
    returns (scores: RougeScores)
    ensures scores == RougeWords(Words(generated, lower), Words(reference, lower))
    ensures 0.0 <= scores.rougeL <= scores.rouge1 < 2.0 && scores.rougeL <= 1.0
  {
    var gen := Words(generated, lower);
    var ref := Words(reference, lower);
    RougeWordsProperties(gen, ref);
    if |gen| == 0 || |ref| == 0 {
      return RougeScores(0.0, 0.0);
    }
    var common := Intersection(gen, ref);
    var lcsScore := LcsTable(gen, ref);
    scores := RougeScores(OverlapF1(|common|, |gen|, |ref|), OverlapF1(lcsScore, |gen|, |ref|));
  }

  // ---------------------------------------------------------------- evaluateAll

  /** `generated.length / (reference.length || 1)` in UTF-16 code units. */
  function LengthRatio(generated: string, reference: string): (ratio: real)
    ensures Utf16Length(reference) > 0 ==> ratio == (Utf16Length(generated) as real) / (Utf16Length(reference) as real)
    ensures ratio >= 0.0
    ensures ratio == 0.0 <==> generated == ""
    ensures generated == reference && generated != "" ==> ratio == 1.0
    ensures reference == "" ==> ratio == Utf16Length(generated) as real
  {
    var numerator := Utf16Length(generated) as real;
    var length := Utf16Length(reference) as real;
    RatioFacts(numerator, length);
    numerator / (if length == 0.0 then 1.0 else length)
  }

  lemma RatioFacts(n: real, u: real)
    requires n >= 0.0 && u >= 0.0
    ensures var q := n / (if u == 0.0 then 1.0 else u);
      q >= 0.0 && (q == 0.0 <==> n == 0.0) &&
      (u > 0.0 ==> q * u == n) && (u == 0.0 ==> q == n) && (n == u && n > 0.0 ==> q == 1.0)
  {
    var d := if u == 0.0 then 1.0 else u;
    QuotientFacts(n, d);
    QuotientTimesDivisor(n, d);
  }

  /** The five metrics, before the three-decimal rounding of `toFixed(3)`. */
  datatype MetricResult = MetricResult(rouge1: real, rougeL: real, bleu: real, semantic: real, lengthRatio: real)

  /** `calculateSemanticScore`: the cosine similarity of the two embeddings, or
      0 when obtaining them failed (`None`). */
  function SemanticScore(similarity: Option<real>): (score: real)
    ensures similarity.None? ==> score == 0.0
    ensures similarity.Some? ==> score == similarity.value
  {
    similarity.GetOr(0.0)
  }

  /** The metric record `evaluateAll` returns for the two texts, given the BLEU
      value of the foreign `bleu-score` package and the outcome of the
      embedding similarity.  ROUGE is `calculateRouge` as written, empty
      tokens included. */
  function Metrics(generated: string, reference: string, lower: string -> string,
                   bleu: real, similarity: Option<real>): (metrics: MetricResult)
    ensures 0.0 <= metrics.rougeL <= metrics.rouge1 < 2.0 && metrics.rougeL <= 1.0
    ensures metrics.bleu == bleu
    ensures similarity.None? ==> metrics.semantic == 0.0
    ensures metrics.lengthRatio >= 0.0 && (metrics.lengthRatio == 0.0 <==> generated == "")
    ensures generated == reference ==> metrics.rouge1 == 1.0 && metrics.rougeL == 1.0
    ensures generated == reference && generated != "" ==> metrics.lengthRatio == 1.0
    // Each field is the scorer it comes from.
    ensures metrics.rouge1 == Rouge(Tokenize(generated, lower), Tokenize(reference, lower)).rouge1
    ensures metrics.rougeL == Rouge(Tokenize(generated, lower), Tokenize(reference, lower)).rougeL
    ensures metrics.semantic == SemanticScore(similarity)
    ensures metrics.lengthRatio == LengthRatio(generated, reference)
  {
    var gen, ref := Tokenize(generated, lower), Tokenize(reference, lower);
    RougeBounds(gen, ref);
    assert generated == reference ==> Rouge(gen, ref) == RougeScores(1.0, 1.0) by {
      if generated == reference {
        RougeOfIdenticalTokens(gen);
      }
    }
    var rouge := Rouge(gen, ref);
    MetricResult(rouge.rouge1, rouge.rougeL, bleu, SemanticScore(similarity), LengthRatio(generated, reference))
  }

  /** `evaluateAll`: `calculateRouge` (with its LCS table), the two foreign
      scores, and the length ratio of the raw texts. */
  method EvaluateAll(generated: string, reference: string, lower: string -> string,
                     bleu: real, similarity: Option<real>)
    returns (metrics: MetricResult)
    ensures metrics == Metrics(generated, reference, lower, bleu, similarity)
    ensures metrics.rouge1 == Rouge(Tokenize(generated, lower), Tokenize(reference, lower)).rouge1
    ensures metrics.rougeL == Rouge(Tokenize(generated, lower), Tokenize(reference, lower)).rougeL
  {
    var rouge := CalculateRouge(generated, reference, lower);
    metrics := MetricResult(rouge.rouge1, rouge.rougeL, bleu, SemanticScore(similarity),
                            LengthRatio(generated, reference));
  }

  /** The evaluate route: both texts are required (an empty string is falsy)
      before `evaluateAll` runs. */
  method EvaluateRequest(generated: string, reference: string, lower: string -> string,
                         bleu: real, similarity: Option<real>)
    returns (response: Result<MetricResult, string>)
    ensures response.Err? <==> generated == "" || reference == ""
    ensures response.Err? ==> response.error == "Generated note and reference note are required"
    ensures response.Ok? ==> response.value == Metrics(generated, reference, lower, bleu, similarity)
  {
    if generated == "" || reference == "" {
      return Err("Generated note and reference note are required");
    }
    var metrics := EvaluateAll(generated, reference, lower, bleu, similarity);
    return Ok(metrics);
  }
}

=== FILE: js_text.dfy ===
/** The JavaScript string primitives the scoring code relies on: UTF-16 `length`,
    the `\s` character class, `split(/\s+/)` and `includes`.  Dafny strings are
    sequences of Unicode scalar values, so a `char` here is one code point. */
module JsText {

  /** Number of UTF-16 code units JavaScript uses for `c`: code points outside
      the Basic Multilingual Plane take a surrogate pair. */
  function Utf16Units(c: char): nat {
    if c as int >= 0x1_0000 then 2 else 1
  }

  /** JavaScript's `s.length`. */
  function Utf16Length(s: string): (n: nat)
    ensures |s| <= n <= 2 * |s|
    // Text within the Basic Multilingual Plane takes one unit per character.
    ensures (forall k :: 0 <= k < |s| ==> s[k] as int < 0x1_0000) ==> n == |s|
  {
    if |s| == 0 then 0 else Utf16Units(s[0]) + Utf16Length(s[1..])
  }

  /** `(a + b).length == a.length + b.length`. */
  lemma {:induction false} Utf16LengthAppend(a: string, b: string)
    ensures Utf16Length(a + b) == Utf16Length(a) + Utf16Length(b)
    decreases |a|
  {
    if |a| > 0 {
      assert (a + b)[0] == a[0];
      assert (a + b)[1..] == a[1..] + b;
      Utf16LengthAppend(a[1..], b);
    } else {
      assert a + b == b;
    }
  }

  /** The characters matched by the regular-expression class `\s`: the
      WhiteSpace and LineTerminator productions of ECMAScript (TAB, VT, FF,
      ZWNBSP, the space separators of category Zs, LF, CR, LS, PS). */
  predicate IsWhitespace(c: char): (b: bool)
    ensures c == ' ' || c == '\t' || c == '\n' || c == '\r' ==> b
    ensures ('a' <= c <= 'z') || ('A' <= c <= 'Z') || ('0' <= c <= '9') ==> !b
  {
    var u := c as int;
    || u == 0x09 || u == 0x0A || u == 0x0B || u == 0x0C || u == 0x0D
    || u == 0x20 || u == 0xA0 || u == 0x1680
    || (0x2000 <= u <= 0x200A)
    || u == 0x2028 || u == 0x2029 || u == 0x202F || u == 0x205F
    || u == 0x3000 || u == 0xFEFF
  }

  predicate NoWhitespace(s: string) {
    forall k :: 0 <= k < |s| ==> !IsWhitespace(s[k])
  }

  /** Index of the first whitespace character of `s`, or `|s|` if there is none. */
  function WordEnd(s: string): (i: nat)
    ensures i <= |s|
    ensures NoWhitespace(s[..i])
    ensures i < |s| ==> IsWhitespace(s[i])
  {
    if |s| == 0 || IsWhitespace(s[0]) then 0
    else
      var i := 1 + WordEnd(s[1..]);
      assert s[..i] == [s[0]] + s[1..][..i - 1];
      i
  }

  /** End of the maximal run of whitespace that starts at `i`. */
  function RunEnd(s: string, i: nat): (j: nat)
    requires i < |s| && IsWhitespace(s[i])
    ensures i < j <= |s|
    ensures forall k :: i <= k < j ==> IsWhitespace(s[k])
    ensures j < |s| ==> !IsWhitespace(s[j])
    decreases |s| - i
  {
    if i + 1 < |s| && IsWhitespace(s[i + 1]) then RunEnd(s, i + 1) else i + 1
  }

  /** `s.split(/\s+/)`: the greedy regular expression consumes each maximal
      run of whitespace, and the pieces between runs are the tokens.  There is
      no special case for the empty string (the pattern cannot match it), so
      `""` gives `[""]`, and a leading or trailing run gives an empty first or
      last token. */
  function Split(s: string): (tokens: seq<string>)
    ensures |tokens| >= 1
    decreases |s|
  {
    var i := WordEnd(s);
    if i == |s| then [s]
    else [s[..i]] + Split(s[RunEnd(s, i)..])
  }

  /** Joins words with single spaces: the inverse of `Split` on well-formed words. */
  function JoinWithSpaces(words: seq<string>): string
    requires |words| >= 1
  {
    if |words| == 1 then words[0] else words[0] + " " + JoinWithSpaces(words[1..])
  }

  function Concat(tokens: seq<string>): string {
    if |tokens| == 0 then "" else tokens[0] + Concat(tokens[1..])
  }

  function RemoveWhitespace(s: string): string {
    if |s| == 0 then ""
    else if IsWhitespace(s[0]) then RemoveWhitespace(s[1..])
    else [s[0]] + RemoveWhitespace(s[1..])
  }

  lemma SplitEmpty()
    ensures Split("") == [""]
  {
  }

  /** No token of `Split(s)` contains a whitespace character. */
  lemma {:induction false} SplitTokensHaveNoWhitespace(s: string)
    ensures forall k :: 0 <= k < |Split(s)| ==> NoWhitespace(Split(s)[k])
    decreases |s|
  {
    var i := WordEnd(s);
    if i < |s| {
      SplitTokensHaveNoWhitespace(s[RunEnd(s, i)..]);
    }
  }

  /** Only the first and the last token can be empty: every token in between
      lies between two whitespace runs. */
  lemma {:induction false} SplitInnerTokensNonEmpty(s: string)
    ensures forall k :: 0 < k < |Split(s)| - 1 ==> Split(s)[k] != ""
    decreases |s|
  {
    var i := WordEnd(s);
    if i < |s| {
      var rest := s[RunEnd(s, i)..];
      SplitInnerTokensNonEmpty(rest);
      if |Split(rest)| > 1 {
        SplitFirstTokenNonEmpty(rest);
      }
    }
  }

  /** A text that starts with a non-whitespace character has a non-empty first token. */
  lemma SplitFirstTokenNonEmpty(s: string)
    requires |s| > 0 && !IsWhitespace(s[0])
    ensures Split(s)[0] != ""
  {
    assert WordEnd(s) > 0;
  }

  /** The last token is empty exactly when the text is empty or ends with
      whitespace: a trailing run leaves an empty string behind it. */
  lemma {:induction false} SplitLastTokenEmptyIff(s: string)
    ensures Split(s)[|Split(s)| - 1] == "" <==> (|s| == 0 || IsWhitespace(s[|s| - 1]))
    decreases |s|
  {
    var i := WordEnd(s);
    if i == |s| {
      assert s[..i] == s;
      if |s| > 0 {
        assert !IsWhitespace(s[..i][|s| - 1]);
      }
    } else {
      var j := RunEnd(s, i);
      var rest := s[j..];
      SplitLastTokenEmptyIff(rest);
      assert Split(s) == [s[..i]] + Split(rest);
      assert Split(s)[|Split(s)| - 1] == Split(rest)[|Split(rest)| - 1];
      if j == |s| {
        assert IsWhitespace(s[|s| - 1]);
      } else {
        assert rest[|rest| - 1] == s[|s| - 1];
      }
    }
  }

  /** The first token is empty exactly when the text is empty or starts with whitespace. */
  lemma SplitFirstTokenEmptyIff(s: string)
    ensures Split(s)[0] == "" <==> (|s| == 0 || IsWhitespace(s[0]))
  {
    if |s| > 0 && !IsWhitespace(s[0]) {
      SplitFirstTokenNonEmpty(s);
    }
  }

  /** Nothing but whitespace is lost: the tokens put back together are the
      text with its whitespace removed. */
  lemma {:induction false} SplitKeepsAllNonWhitespace(s: string)
    ensures Concat(Split(s)) == RemoveWhitespace(s)
    decreases |s|
  {
    var i := WordEnd(s);
    if i == |s| {
      assert s[..i] == s;
      NoWhitespaceUnchanged(s);
      ConcatCons(s, []);
      assert [s] + [] == [s];
    } else {
      var j := RunEnd(s, i);
      SplitKeepsAllNonWhitespace(s[j..]);
      RemoveWhitespaceAtRun(s, i, j);
      ConcatCons(s[..i], Split(s[j..]));
    }
  }

  /** Removing the whitespace of `s` drops the run `s[i..j]` that follows the first word. */
  lemma {:induction false} RemoveWhitespaceAtRun(s: string, i: nat, j: nat)
    requires i <= j <= |s|
    requires NoWhitespace(s[..i])
    requires forall k :: i <= k < j ==> IsWhitespace(s[k])
    ensures RemoveWhitespace(s) == s[..i] + RemoveWhitespace(s[j..])
  {
    var word, run, rest := s[..i], s[i..j], s[j..];
    assert s == word + (run + rest);
    forall k | 0 <= k < |run|
      ensures IsWhitespace(run[k])
    {
      assert run[k] == s[i + k];
    }
    RemoveWhitespaceAppend(word, run + rest);
    RemoveWhitespaceAppend(run, rest);
    NoWhitespaceUnchanged(word);
    WhitespaceRunRemoved(run);
  }

  lemma {:induction false} ConcatCons(w: string, tokens: seq<string>)
    ensures Concat([w] + tokens) == w + Concat(tokens)
  {
    assert ([w] + tokens)[1..] == tokens;
  }

  lemma {:induction false} NoWhitespaceUnchanged(s: string)
    requires NoWhitespace(s)
    ensures RemoveWhitespace(s) == s
  {
    if |s| > 0 {
      NoWhitespaceUnchanged(s[1..]);
    }
  }

  lemma {:induction false} WhitespaceRunRemoved(s: string)
    requires forall k :: 0 <= k < |s| ==> IsWhitespace(s[k])
    ensures RemoveWhitespace(s) == ""
  {
    if |s| > 0 {
      WhitespaceRunRemoved(s[1..]);
    }
  }

  lemma {:induction false} RemoveWhitespaceAppend(a: string, b: string)
    ensures RemoveWhitespace(a + b) == RemoveWhitespace(a) + RemoveWhitespace(b)
  {
    if |a| > 0 {
      assert (a + b)[1..] == a[1..] + b;
      RemoveWhitespaceAppend(a[1..], b);
    } else {
      assert a + b == b;
    }
  }

  /** `split` undoes a single-space join of non-empty words free of whitespace. */
  lemma {:induction false} SplitJoinRoundTrip(words: seq<string>)
    requires |words| >= 1
    requires forall k :: 0 <= k < |words| ==> words[k] != "" && NoWhitespace(words[k])
    ensures Split(JoinWithSpaces(words)) == words
  {
    if |words| == 1 {
      WordEndOfWord(words[0], "");
      assert words[0] + "" == words[0];
    } else {
      var w := words[0];
      var rest := JoinWithSpaces(words[1..]);
      var s := JoinWithSpaces(words);
      assert s == w + (" " + rest);
      SplitJoinRoundTrip(words[1..]);
      JoinStartsWithWord(words[1..]);
      WordEndOfWord(w, " " + rest);
      assert WordEnd(s) == |w|;
      assert s[|w|] == ' ';
      assert s[|w| + 1] == rest[0];
      assert RunEnd(s, |w|) == |w| + 1;
      assert s[..|w|] == w;
      assert s[|w| + 1..] == rest;
    }
  }

  /** A whitespace-free text is a single token. */
  lemma SplitWord(w: string)
    requires NoWhitespace(w)
    ensures Split(w) == [w]
  {
    WordEndOfWord(w, "");
    assert w + "" == w;
  }

  /** A word followed by a maximal whitespace run of any length and kind
      (spaces, tabs, newlines, ...) is split off as one token, and the run is
      consumed whole.  With `SplitWord` this determines `Split` on every
      text: the empty word covers a leading run. */
  lemma SplitAtRun(w: string, run: string, rest: string)
    requires NoWhitespace(w)
    requires |run| > 0 && forall k :: 0 <= k < |run| ==> IsWhitespace(run[k])
    requires |rest| == 0 || !IsWhitespace(rest[0])
    ensures Split(w + run + rest) == [w] + Split(rest)
  {
    var s := w + run + rest;
    var e := |w| + |run|;
    assert s == w + (run + rest);
    WordEndOfWord(w, run + rest);
    assert s[|w|] == run[0];
    var j := RunEnd(s, |w|);
    assert forall k :: |w| <= k < e ==> s[k] == run[k - |w|];
    assert e < |s| ==> s[e] == rest[0];
    assert j == e;
    assert s[..|w|] == w;
    assert s[e..] == rest;
  }

  /** Joins words with arbitrary separators: `seps[k]` sits between `words[k]` and `words[k + 1]`. */
  function JoinWithRuns(words: seq<string>, seps: seq<string>): string
    requires |words| >= 1 && |seps| == |words| - 1
  {
    if |words| == 1 then words[0] else words[0] + seps[0] + JoinWithRuns(words[1..], seps[1..])
  }

  /** `split` undoes a join of non-empty whitespace-free words by any
      non-empty whitespace separators: each run, however long and whatever
      its characters, separates exactly two tokens. */
  lemma {:induction false} SplitJoinRunsRoundTrip(words: seq<string>, seps: seq<string>)
    requires |words| >= 1 && |seps| == |words| - 1
    requires forall k :: 0 <= k < |words| ==> words[k] != "" && NoWhitespace(words[k])
    requires forall k :: 0 <= k < |seps| ==> |seps[k]| > 0 && forall m :: 0 <= m < |seps[k]| ==> IsWhitespace(seps[k][m])
    ensures Split(JoinWithRuns(words, seps)) == words
  {
    if |words| == 1 {
      SplitWord(words[0]);
    } else {
      var rest := JoinWithRuns(words[1..], seps[1..]);
      SplitJoinRunsRoundTrip(words[1..], seps[1..]);
      JoinWithRunsStartsWithWord(words[1..], seps[1..]);
      SplitAtRun(words[0], seps[0], rest);
      assert [words[0]] + words[1..] == words;
    }
  }

  lemma {:induction false} JoinWithRunsStartsWithWord(words: seq<string>, seps: seq<string>)
    requires |words| >= 1 && |seps| == |words| - 1
    requires words[0] != "" && NoWhitespace(words[0])
    ensures |JoinWithRuns(words, seps)| > 0 && !IsWhitespace(JoinWithRuns(words, seps)[0])
  {
  }

  lemma {:induction false} JoinStartsWithWord(words: seq<string>)
    requires |words| >= 1
    requires words[0] != "" && NoWhitespace(words[0])
    ensures |JoinWithSpaces(words)| > 0 && JoinWithSpaces(words)[0] == words[0][0]
  {
  }

  lemma {:induction false} WordEndOfWord(w: string, tail: string)
    requires NoWhitespace(w)
    requires |tail| == 0 || IsWhitespace(tail[0])
    ensures WordEnd(w + tail) == |w|
    decreases |w|
  {
    if |w| > 0 {
      assert (w + tail)[1..] == w[1..] + tail;
      WordEndOfWord(w[1..], tail);
    } else {
      assert w + tail == tail;
    }
  }

  /** `sub` occurs in `s` at index `i`. */
  predicate OccursAt(s: string, sub: string, i: int) {
    0 <= i && i + |sub| <= |s| && s[i..i + |sub|] == sub
  }

  /** `s.includes(sub)`: scan for `sub` at each starting index in turn. */
  predicate Contains(s: string, sub: string): (b: bool)
    ensures |sub| == 0 ==> b
    decreases |s|
  {
    (|sub| <= |s| && s[..|sub|] == sub) || (|s| > 0 && Contains(s[1..], sub))
  }

  /** `Contains` holds exactly when `sub` occurs in `s` at some index. */
  lemma {:induction false} ContainsIff(s: string, sub: string)
    ensures Contains(s, sub) <==> exists i :: OccursAt(s, sub, i)
    decreases |s|
  {
    if |sub| <= |s| && s[..|sub|] == sub {
      assert OccursAt(s, sub, 0);
    }
    if |s| > 0 {
      ContainsIff(s[1..], sub);
      if Contains(s[1..], sub) {
        var i :| OccursAt(s[1..], sub, i);
        assert s[i + 1..i + 1 + |sub|] == s[1..][i..i + |sub|];
        assert OccursAt(s, sub, i + 1);
      }
      if i :| OccursAt(s, sub, i) {
        if i > 0 {
          assert s[1..][i - 1..i - 1 + |sub|] == s[i..i + |sub|];
          assert OccursAt(s[1..], sub, i - 1);
        } else {
          assert s[..|sub|] == sub;
        }
      }
    } else {
      if i :| OccursAt(s, sub, i) {
        assert |sub| == 0 && s[..0] == sub;
      }
    }
  }

  /** A text cannot contain a pattern one of whose characters it lacks. */
  lemma {:induction false} MissingCharNotContained(s: string, sub: string, k: nat)
    requires k < |sub| && sub[k] !in s
    ensures !Contains(s, sub)
    decreases |s|
  {
    if |sub| <= |s| {
      assert s[..|sub|][k] == s[k];
    }
    if |s| > 0 {
      MissingCharNotContained(s[1..], sub, k);
    }
  }
}

=== FILE: page.dfy ===
/*
 * The list and state helpers of the comparison page (app/page.tsx): the
 * model selection toggle, the provider guessed from a model name, the
 * initial results list and the per-model updates applied when a
 * generation finishes.  The model catalog (components/ModelSelector.tsx)
 * and the provider dispatch of the generation route
 * (app/api/generate/route.ts) are included as the data these helpers are
 * checked against.  Fetching, React state scheduling and rendering are
 * not modelled.
 */
module Page {
  import opened Wrappers
  import opened JsText
  import opened Dashboard

  // ---------------------------------------------------------------------------
  // Model selection
  // ---------------------------------------------------------------------------

  /** `prev.filter(p => p !== value)`. */
  function Remove(prev: seq<string>, value: string): (r: seq<string>)
    ensures |r| <= |prev|
    ensures value !in r
    ensures forall v :: v != value ==> (v in r <==> v in prev)
  {
    if |prev| == 0 then []
    else (if prev[0] == value then [] else [prev[0]]) + Remove(prev[1..], value)
  }

  /** `toggleModel(value)`: drop every occurrence if present, else append. */
  function ToggleModel(prev: seq<string>, value: string): (next: seq<string>)
    ensures value !in prev ==> next == prev + [value]
    ensures value in next <==> value !in prev
    ensures forall v :: v != value ==> (v in next <==> v in prev)
  {
    if value in prev then Remove(prev, value) else prev + [value]
  }

  lemma {:induction false} RemoveAbsent(prev: seq<string>, value: string)
    requires value !in prev
    ensures Remove(prev, value) == prev
    decreases |prev|
  {
    if |prev| > 0 {
      assert value !in prev[1..];
      RemoveAbsent(prev[1..], value);
      assert prev == [prev[0]] + prev[1..];
    }
  }

  lemma {:induction false} RemoveAppend(a: seq<string>, b: seq<string>, value: string)
    ensures Remove(a + b, value) == Remove(a, value) + Remove(b, value)
    decreases |a|
  {
    if |a| == 0 {
      assert a + b == b;
    } else {
      assert (a + b)[0] == a[0];
      assert (a + b)[1..] == a[1..] + b;
      RemoveAppend(a[1..], b, value);
    }
  }

  /**
   * The other selected models keep their relative order: with `value` set
   * aside, the list is the same before and after the toggle.
   */
  lemma ToggleKeepsOthersInOrder(prev: seq<string>, value: string)
    ensures Remove(ToggleModel(prev, value), value) == Remove(prev, value)
  {
    if value in prev {
      RemoveAbsent(Remove(prev, value), value);
    } else {
      RemoveAppend(prev, [value], value);
      var tail := [value];
      assert tail[1..] == [];
    }
  }

  /** Selecting a model and deselecting it again restores the selection. */
  lemma ToggleTwiceRestores(prev: seq<string>, value: string)
    requires value !in prev
    ensures ToggleModel(ToggleModel(prev, value), value) == prev
  {
    RemoveAppend(prev, [value], value);
    RemoveAbsent(prev, value);
    var tail := [value];
    assert tail[1..] == [];
  }

  predicate Distinct(s: seq<string>) {
    forall i, j :: 0 <= i < j < |s| ==> s[i] != s[j]
  }

  lemma {:induction false} RemoveKeepsDistinct(prev: seq<string>, value: string)
    requires Distinct(prev)
    ensures Distinct(Remove(prev, value))
    decreases |prev|
  {
    if |prev| > 0 {
      RemoveKeepsDistinct(prev[1..], value);
      var rest := Remove(prev[1..], value);
      assert prev[0] !in prev[1..];
      assert prev[0] !in rest;
      var r := Remove(prev, value);
      if prev[0] != value {
        assert r == [prev[0]] + rest;
        assert forall j :: 1 <= j < |r| ==> r[j] == rest[j - 1];
      }
    }
  }

  /** The selection after toggling the given values one after another, starting from `[]`. */
  function Selection(toggles: seq<string>): seq<string>
  {
    if |toggles| == 0 then [] else ToggleModel(Selection(toggles[..|toggles| - 1]), toggles[|toggles| - 1])
  }

  /** A selection reached by toggling alone never lists a model twice. */
  lemma {:induction false} SelectionIsDistinct(toggles: seq<string>)
    ensures Distinct(Selection(toggles))
    decreases |toggles|
  {
    if |toggles| > 0 {
      var prev := Selection(toggles[..|toggles| - 1]);
      var value := toggles[|toggles| - 1];
      SelectionIsDistinct(toggles[..|toggles| - 1]);
      if value in prev {
        RemoveKeepsDistinct(prev, value);
      } else {
        var next := prev + [value];
        assert forall i :: 0 <= i < |prev| ==> next[i] == prev[i];
      }
    }
  }

  // ---------------------------------------------------------------------------
  // Providers
  // ---------------------------------------------------------------------------

  datatype Provider = OpenAI | Gemini | Local | HuggingFace

  /** The provider string sent to the generation route. */
  function ProviderName(p: Provider): string {
    match p
    case OpenAI => "openai"
    case Gemini => "gemini"
    case Local => "local"
    case HuggingFace => "huggingface"
  }

  /** The route's dispatch on the provider string; anything else is rejected. */
  function ParseProvider(name: string): (r: Result<Provider, string>)
    ensures r.Ok? <==> name in {"openai", "gemini", "local", "huggingface"}
    ensures r.Ok? ==> ProviderName(r.value) == name
    ensures r.Err? ==> r.error == "Invalid provider"
  {
    if name == "openai" then Ok(OpenAI)
    else if name == "gemini" then Ok(Gemini)
    else if name == "local" then Ok(Local)
    else if name == "huggingface" then Ok(HuggingFace)
    else Err("Invalid provider")
  }

  /** The provider guessed from the model name, in the page's order of checks. */
  function InferProvider(model: string): (p: Provider)
    ensures Contains(model, "gemini") ==> p == Gemini
    ensures p == Local ==> model == "local-t5"
    ensures p == HuggingFace ==> Contains(model, "HuggingFaceTB") || Contains(model, "katanemo")
  {
    if Contains(model, "gemini") then Gemini
    else if model == "local-t5" then Local
    else if Contains(model, "HuggingFaceTB") || Contains(model, "katanemo") then HuggingFace
    else OpenAI
  }

  /** Whatever the model name, the route accepts the provider the page sends: 'Invalid provider' is unreachable from the page. */
  lemma InferredProviderIsAccepted(model: string)
    ensures ParseProvider(ProviderName(InferProvider(model))) == Ok(InferProvider(model))
  {
  }

  /** The rule in its own terms: which substring decides each provider. */
  lemma InferProviderCases(model: string)
    ensures InferProvider(model) == Gemini <==> exists i :: OccursAt(model, "gemini", i)
    ensures InferProvider(model) == Local <==> model == "local-t5"
    ensures InferProvider(model) == HuggingFace <==>
              (!exists i :: OccursAt(model, "gemini", i)) &&
              ((exists i :: OccursAt(model, "HuggingFaceTB", i)) || (exists i :: OccursAt(model, "katanemo", i)))
  {
    ContainsIff(model, "gemini");
    ContainsIff(model, "HuggingFaceTB");
    ContainsIff(model, "katanemo");
    if model == "local-t5" {
      MissingCharNotContained(model, "gemini", 0);
    }
  }

  datatype ModelOption = ModelOption(value: string, title: string, provider: Provider)

  /** `GPT_MODELS` of the model selector. */
  const GptModels: seq<ModelOption> := [
    ModelOption("gpt-4o", "GPT-4o", OpenAI),
    ModelOption("gpt-4o-mini", "GPT-4o Mini", OpenAI),
    ModelOption("gpt-4-turbo-preview", "GPT-4 Turbo Preview", OpenAI),
    ModelOption("gpt-3.5-turbo", "GPT-3.5 Turbo", OpenAI),
    ModelOption("katanemo/Arch-Router-1.5B", "Arch-Router-1.5B (HF Free)", HuggingFace)
  ]

  /** `GEMINI_MODELS` of the model selector. */
  const GeminiModels: seq<ModelOption> := [
    ModelOption("gemini-1.5-pro", "Gemini 1.5 Pro", Gemini),
    ModelOption("gemini-1.5-flash", "Gemini 1.5 Flash", Gemini),
    ModelOption("gemini-pro", "Gemini Pro (Legacy)", Gemini)
  ]

  /** A name goes to OpenAI exactly when none of the earlier checks fires. */
  lemma OpenAINameInfersOpenAI(model: string)
    ensures InferProvider(model) == OpenAI <==>
              !Contains(model, "gemini") && model != "local-t5" &&
              !Contains(model, "HuggingFaceTB") && !Contains(model, "katanemo")
  {
  }

  /** A cheap way to show a name falls through to OpenAI: it lacks one letter
      of "gemini", and the letters 'H' and 'k' that start the other patterns. */
  lemma OpenAINameByMissingChars(model: string, gi: nat)
    requires gi < 6 && "gemini"[gi] !in model
    requires 'H' !in model && 'k' !in model && model != "local-t5"
    ensures InferProvider(model) == OpenAI
  {
    MissingCharNotContained(model, "gemini", gi);
    MissingCharNotContained(model, "HuggingFaceTB", 0);
    MissingCharNotContained(model, "katanemo", 0);
    OpenAINameInfersOpenAI(model);
  }

  lemma GeminiNameInfersGemini(model: string)
    requires |model| >= 6 && model[..6] == "gemini"
    ensures InferProvider(model) == Gemini
  {
  }

  lemma KatanemoNameInfersHuggingFace(model: string)
    requires |model| >= 8 && model[..8] == "katanemo" && 'g' !in model
    ensures InferProvider(model) == HuggingFace
  {
    MissingCharNotContained(model, "gemini", 0);
  }

  /** `allModels`: the catalog the selector lists. */
  const AllModels: seq<ModelOption> := GptModels + GeminiModels

  lemma CatalogEntry0Agrees()
    ensures InferProvider(AllModels[0].value) == AllModels[0].provider
  {
    var m := AllModels[0].value;
    assert m == "gpt-4o";
    OpenAINameByMissingChars(m, 1);
  }

  lemma CatalogEntry1Agrees()
    ensures InferProvider(AllModels[1].value) == AllModels[1].provider
  {
    var m := AllModels[1].value;
    assert m == "gpt-4o-mini";
    OpenAINameByMissingChars(m, 1);
  }

  lemma CatalogEntry2Agrees()
    ensures InferProvider(AllModels[2].value) == AllModels[2].provider
  {
    var m := AllModels[2].value;
    assert m == "gpt-4-turbo-preview";
    OpenAINameByMissingChars(m, 2);
  }

  lemma CatalogEntry3Agrees()
    ensures InferProvider(AllModels[3].value) == AllModels[3].provider
  {
    var m := AllModels[3].value;
    assert m == "gpt-3.5-turbo";
    OpenAINameByMissingChars(m, 1);
  }

  lemma CatalogEntry4Agrees()
    ensures InferProvider(AllModels[4].value) == AllModels[4].provider
  {
    var m := AllModels[4].value;
    assert m == "katanemo/Arch-Router-1.5B";
    KatanemoNameInfersHuggingFace(m);
  }

  lemma CatalogEntry5Agrees()
    ensures InferProvider(AllModels[5].value) == AllModels[5].provider
  {
    var m := AllModels[5].value;
    assert m == "gemini-1.5-pro" && m[..6] == "gemini";
    GeminiNameInfersGemini(m);
  }

  lemma CatalogEntry6Agrees()
    ensures InferProvider(AllModels[6].value) == AllModels[6].provider
  {
    var m := AllModels[6].value;
    assert m == "gemini-1.5-flash" && m[..6] == "gemini";
    GeminiNameInfersGemini(m);
  }

  lemma CatalogEntry7Agrees()
    ensures InferProvider(AllModels[7].value) == AllModels[7].provider
  {
    var m := AllModels[7].value;
    assert m == "gemini-pro" && m[..6] == "gemini";
    GeminiNameInfersGemini(m);
  }

  /** For every catalog entry the page infers the provider the catalog declares. */
  lemma CatalogProvidersAgree()
    ensures forall i :: 0 <= i < |AllModels| ==> InferProvider(AllModels[i].value) == AllModels[i].provider
  {
    assert |AllModels| == 8;
    forall i | 0 <= i < |AllModels|
      ensures InferProvider(AllModels[i].value) == AllModels[i].provider
    {
      if i == 0 { CatalogEntry0Agrees(); }
      else if i == 1 { CatalogEntry1Agrees(); }
      else if i == 2 { CatalogEntry2Agrees(); }
      else if i == 3 { CatalogEntry3Agrees(); }
      else if i == 4 { CatalogEntry4Agrees(); }
      else if i == 5 { CatalogEntry5Agrees(); }
      else if i == 6 { CatalogEntry6Agrees(); }
      else { CatalogEntry7Agrees(); }
    }
  }

  // ---------------------------------------------------------------------------
  // The results list
  // ---------------------------------------------------------------------------

  /** `newResults`: one loading placeholder per selected model, in order. */
  function NewResults(selected: seq<string>): (results: seq<EvaluationResult>)
    ensures |results| == |selected|
    ensures forall i :: 0 <= i < |selected| ==>
              results[i] == EvaluationResult(selected[i], "", true, None, None)
  {
    seq(|selected|, i requires 0 <= i < |selected| => EvaluationResult(selected[i], "", true, None, None))
  }

  /** Before any model answers nothing is scored, so there is no winner yet. */
  lemma NewResultsHaveNoWinner(selected: seq<string>)
    ensures ChartData(NewResults(selected)) == []
    ensures BestModelName(ChartData(NewResults(selected))) == None
  {
  }

  /** `handleGenerate` starts only with a transcript loaded and at least one model selected. */
  function StartGeneration(hasTranscript: bool, selected: seq<string>): (started: Option<seq<EvaluationResult>>)
    ensures started.Some? <==> hasTranscript && |selected| > 0
    ensures started.Some? ==> started.value == NewResults(selected)
  {
    if !hasTranscript || |selected| == 0 then None else Some(NewResults(selected))
  }

  /** How one model's request ended: a note (with metrics when it was scored) or an error message. */
  datatype Outcome =
    | Generated(model: string, note: string, metrics: Option<Metrics>)
    | Failed(model: string, message: string)

  /** The `setResults(prev => prev.map(...))` update for one outcome. */
  function Apply(results: seq<EvaluationResult>, outcome: Outcome): (next: seq<EvaluationResult>)
    ensures |next| == |results|
    ensures forall i :: 0 <= i < |results| ==> next[i].modelName == results[i].modelName
    ensures forall i :: 0 <= i < |results| && results[i].modelName != outcome.model ==> next[i] == results[i]
    ensures forall i :: 0 <= i < |results| && results[i].modelName == outcome.model ==>
              !next[i].loading &&
              match outcome
              case Generated(_, note, metrics) =>
                next[i] == results[i].(note := note, loading := false, metrics := metrics)
              case Failed(_, message) =>
                next[i] == results[i].(loading := false, error := Some(message))
  {
    seq(|results|, i requires 0 <= i < |results| =>
      var r := results[i];
      if r.modelName != outcome.model then r
      else match outcome
        case Generated(_, note, metrics) => r.(note := note, loading := false, metrics := metrics)
        case Failed(_, message) => r.(loading := false, error := Some(message)))
  }

  /** The outcomes applied in the order they arrive. */
  function ApplyAll(results: seq<EvaluationResult>, outcomes: seq<Outcome>): seq<EvaluationResult>
    decreases |outcomes|
  {
    if |outcomes| == 0 then results else ApplyAll(Apply(results, outcomes[0]), outcomes[1..])
  }

  predicate Answered(outcomes: seq<Outcome>, model: string) {
    exists k :: 0 <= k < |outcomes| && outcomes[k].model == model
  }

  /**
   * Whatever order the outcomes arrive in, an entry is still loading at the
   * end only if it was loading before and no outcome named its model;
   * names and length never change.
   */
  lemma {:induction false} ApplyAllSettles(results: seq<EvaluationResult>, outcomes: seq<Outcome>)
    ensures |ApplyAll(results, outcomes)| == |results|
    ensures forall i :: 0 <= i < |results| ==>
              ApplyAll(results, outcomes)[i].modelName == results[i].modelName &&
              (ApplyAll(results, outcomes)[i].loading ==>
                 results[i].loading && !Answered(outcomes, results[i].modelName))
    decreases |outcomes|
  {
    if |outcomes| > 0 {
      var next := Apply(results, outcomes[0]);
      ApplyAllSettles(next, outcomes[1..]);
      forall i | 0 <= i < |results| && ApplyAll(results, outcomes)[i].loading
        ensures !Answered(outcomes, results[i].modelName)
      {
        assert next[i].loading;
        assert outcomes[0].model != results[i].modelName;
        assert forall k :: 1 <= k < |outcomes| ==> outcomes[k] == outcomes[1..][k - 1];
      }
    }
  }

  /** Once every selected model has answered, with a note or an error, nothing is loading. */
  lemma AllSettled(selected: seq<string>, outcomes: seq<Outcome>)
    requires forall m :: m in selected ==> Answered(outcomes, m)
    ensures forall r :: r in ApplyAll(NewResults(selected), outcomes) ==> !r.loading
  {
    var start := NewResults(selected);
    ApplyAllSettles(start, outcomes);
    forall r | r in ApplyAll(start, outcomes)
      ensures !r.loading
    {
      var i :| 0 <= i < |start| && ApplyAll(start, outcomes)[i] == r;
      assert start[i].modelName == selected[i];
    }
  }
}

=== FILE: quotients.dfy ===
/** Facts about real quotients `x / s` with a positive divisor, used to bound
    the F1 scores.  Each is stated on its own: together they overwhelm the
    solver's non-linear arithmetic. */
module Quotients {

  lemma QuotientFacts(x: real, s: real)
    requires x >= 0.0 && s > 0.0
    ensures x / s >= 0.0
    ensures x / s == 0.0 <==> x == 0.0
    ensures x <= s ==> x / s <= 1.0
    ensures x < 2.0 * s ==> x / s < 2.0
    ensures x == s ==> x / s == 1.0
  {
    QuotientNonNegative(x, s);
    QuotientZero(x, s);
    if x <= s {
      QuotientAtMost(x, s, 1.0);
    }
    if x < 2.0 * s {
      QuotientBelow(x, s, 2.0);
    }
  }

  lemma QuotientNonNegative(x: real, s: real)
    requires x >= 0.0 && s > 0.0
    ensures x / s >= 0.0
  {
    assert (x / s) * s == x;
  }

  lemma QuotientZero(x: real, s: real)
    requires s > 0.0
    ensures x / s == 0.0 <==> x == 0.0
  {
    assert (x / s) * s == x;
  }

  lemma QuotientAtMost(x: real, s: real, k: real)
    requires s > 0.0 && x <= k * s
    ensures x / s <= k
  {
    assert (x / s) * s == x;
  }

  lemma QuotientBelow(x: real, s: real, k: real)
    requires s > 0.0 && x < k * s
    ensures x / s < k
  {
    assert (x / s) * s == x;
  }

  lemma QuotientAtLeast(x: real, s: real, k: real)
    requires s > 0.0 && k * s <= x
    ensures k <= x / s
  {
    assert (x / s) * s == x;
  }

  lemma QuotientTimesDivisor(x: real, s: real)
    requires s != 0.0
    ensures (x / s) * s == x
  {
  }

  lemma QuotientMonotone(x: real, y: real, s: real)
    requires x <= y && s > 0.0
    ensures x / s <= y / s
  {
    assert (x / s) * s == x && (y / s) * s == y;
  }
}

=== FILE: rate_limit.dfy ===
/*
 * Per-IP fixed-window rate limiter of the generation endpoint
 * (lib/rate-limit.ts).
 *
 * The two module-level maps of the source become one immutable
 * `Limiter` value, and `Date.now()` becomes the parameter `now`
 * (milliseconds).  A call is a transition from one limiter to the next
 * together with a verdict: the two `throw`s of the source are the
 * verdicts `TemporarilyBlocked` and `LimitExceeded`.
 */
module RateLimit {

  /** One IP's current window: requests counted so far and when the window ends. */
  datatype Window = Window(count: int, expiresAt: int)

  /** trackers: IP -> window; blockedIps: IP -> blockedUntil timestamp. */
  datatype Limiter = Limiter(trackers: map<string, Window>, blockedIps: map<string, int>)

  datatype Config = Config(windowMs: int, max: int)

  datatype Verdict =
    | Allowed
    | TemporarilyBlocked(waitSeconds: int)
    | LimitExceeded

  datatype Step = Step(limiter: Limiter, verdict: Verdict)

  /** The default argument of checkRateLimit: 5 requests per minute. */
  const DefaultConfig: Config := Config(60 * 1000, 5)

  /** What the generation route passes: 10 requests per minute. */
  const GenerateRouteConfig: Config := Config(60 * 1000, 10)

  /** Length of the block imposed once the limit is exceeded: five minutes. */
  const BlockDurationMs: int := 5 * 60 * 1000

  const Empty: Limiter := Limiter(map[], map[])

  /**
   * `blockedUntil && now < blockedUntil`: a stored timestamp of 0 is
   * falsy in JavaScript and so never blocks.
   */
  predicate IsBlocked(s: Limiter, ip: string, now: int)
  {
    ip in s.blockedIps && s.blockedIps[ip] != 0 && now < s.blockedIps[ip]
  }

  /** `!record || now > record.expiresAt`: the window is (re)started. */
  predicate StartsFreshWindow(s: Limiter, ip: string, now: int)
  {
    ip !in s.trackers || now > s.trackers[ip].expiresAt
  }

  /** `Math.ceil(ms / 1000)` for a whole number of milliseconds. */
  function CeilSeconds(ms: int): (secs: int)
    ensures (secs - 1) * 1000 < ms <= secs * 1000
  {
    (ms + 999) / 1000
  }

  /** The window the request is counted in, after the increment. */
  function CountedWindow(s: Limiter, ip: string, now: int, cfg: Config): Window
  {
    if StartsFreshWindow(s, ip, now) then Window(1, now + cfg.windowMs)
    else Window(s.trackers[ip].count + 1, s.trackers[ip].expiresAt)
  }

  /** checkRateLimit(ip, config) called at time `now`. */
  function CheckRateLimit(s: Limiter, ip: string, now: int, cfg: Config): (r: Step)
    // A blocked IP is refused with the remaining time, and nothing is recorded.
    ensures IsBlocked(s, ip, now) <==> r.verdict.TemporarilyBlocked?
    ensures IsBlocked(s, ip, now) ==>
              r.limiter == s &&
              r.verdict.waitSeconds >= 1 &&
              (r.verdict.waitSeconds - 1) * 1000 < s.blockedIps[ip] - now <= r.verdict.waitSeconds * 1000
    // Otherwise the request is counted: a fresh window starts at 1 and ends windowMs later ...
    ensures !IsBlocked(s, ip, now) && StartsFreshWindow(s, ip, now) ==>
              ip in r.limiter.trackers && r.limiter.trackers[ip] == Window(1, now + cfg.windowMs)
    // ... and a live window (including now == expiresAt) gains exactly one request.
    ensures !IsBlocked(s, ip, now) && !StartsFreshWindow(s, ip, now) ==>
              ip in r.limiter.trackers &&
              r.limiter.trackers[ip].count == s.trackers[ip].count + 1 &&
              r.limiter.trackers[ip].expiresAt == s.trackers[ip].expiresAt
    // The call succeeds iff the IP is not blocked and the new count is within the limit;
    // success leaves the block list alone.
    ensures r.verdict.Allowed? <==> !IsBlocked(s, ip, now) && r.limiter.trackers[ip].count <= cfg.max
    ensures r.verdict.Allowed? ==> r.limiter.blockedIps == s.blockedIps
    // Going over the limit blocks the IP for five minutes and keeps the over-limit window.
    ensures r.verdict.LimitExceeded? <==> !IsBlocked(s, ip, now) && r.limiter.trackers[ip].count > cfg.max
    ensures r.verdict.LimitExceeded? ==>
              ip in r.limiter.blockedIps && r.limiter.blockedIps[ip] == now + 300000
    // No other IP's entries change.
    ensures r.limiter.trackers.Keys == s.trackers.Keys + {ip} || r.limiter == s
    ensures forall other :: other != ip && other in s.trackers ==>
              other in r.limiter.trackers && r.limiter.trackers[other] == s.trackers[other]
    ensures forall other :: other != ip ==>
              (other in r.limiter.blockedIps <==> other in s.blockedIps)
    ensures forall other :: other != ip && other in s.blockedIps ==>
              r.limiter.blockedIps[other] == s.blockedIps[other]
  {
    if IsBlocked(s, ip, now) then
      Step(s, TemporarilyBlocked(CeilSeconds(s.blockedIps[ip] - now)))
    else
      var record := CountedWindow(s, ip, now, cfg);
      var trackers := s.trackers[ip := record];
      if record.count > cfg.max then
        Step(Limiter(trackers, s.blockedIps[ip := now + BlockDurationMs]), LimitExceeded)
      else
        Step(Limiter(trackers, s.blockedIps), Allowed)
  }

  /** Replays requests from one IP at the given times. */
  function Replay(s: Limiter, ip: string, times: seq<int>, cfg: Config): Limiter
    decreases |times|
  {
    if |times| == 0 then s
    else Replay(CheckRateLimit(s, ip, times[0], cfg).limiter, ip, times[1..], cfg)
  }

  /** How many of those requests were let through. */
  function Successes(s: Limiter, ip: string, times: seq<int>, cfg: Config): nat
    decreases |times|
  {
    if |times| == 0 then 0
    else
      var r := CheckRateLimit(s, ip, times[0], cfg);
      (if r.verdict.Allowed? then 1 else 0) + Successes(r.limiter, ip, times[1..], cfg)
  }

  function Headroom(count: int, max: int): nat
  {
    if count >= max then 0 else max - count
  }

  /**
   * While no request falls after the end of the current window, the window
   * is never restarted, so at most `max - count` further requests succeed.
   */
  lemma {:induction false} LiveWindowBound(s: Limiter, ip: string, times: seq<int>, cfg: Config)
    requires ip in s.trackers
    requires forall k :: 0 <= k < |times| ==> times[k] <= s.trackers[ip].expiresAt
    ensures Successes(s, ip, times, cfg) <= Headroom(s.trackers[ip].count, cfg.max)
    ensures ip in Replay(s, ip, times, cfg).trackers
    ensures Replay(s, ip, times, cfg).trackers[ip].expiresAt == s.trackers[ip].expiresAt
    ensures Replay(s, ip, times, cfg).trackers[ip].count >= s.trackers[ip].count
    decreases |times|
  {
    if |times| > 0 {
      var r := CheckRateLimit(s, ip, times[0], cfg);
      assert forall k :: 0 <= k < |times[1..]| ==> times[1..][k] == times[k + 1];
      LiveWindowBound(r.limiter, ip, times[1..], cfg);
    }
  }

  /**
   * A window that starts at `start` lets at most `max` requests through
   * before the next reset: every later request up to `start + windowMs`
   * is counted in it.
   */
  lemma FreshWindowBound(s: Limiter, ip: string, start: int, later: seq<int>, cfg: Config)
    requires !IsBlocked(s, ip, start) && StartsFreshWindow(s, ip, start)
    requires forall k :: 0 <= k < |later| ==> later[k] <= start + cfg.windowMs
    ensures Successes(s, ip, [start] + later, cfg) <= Headroom(0, cfg.max)
  {
    var times := [start] + later;
    var r := CheckRateLimit(s, ip, start, cfg);
    assert times[1..] == later;
    LiveWindowBound(r.limiter, ip, later, cfg);
  }

  /**
   * Starting from no recorded state, the first request of an IP is let
   * through, and a minute that starts with it admits at most `max` requests:
   * 5 with the default configuration, 10 with the generation route's.
   */
  lemma FirstWindowFromEmpty(ip: string, start: int, later: seq<int>, cfg: Config)
    requires cfg == DefaultConfig || cfg == GenerateRouteConfig
    requires forall k :: 0 <= k < |later| ==> later[k] <= start + 60000
    ensures CheckRateLimit(Empty, ip, start, cfg).verdict == Allowed
    ensures Successes(Empty, ip, [start] + later, cfg) <= if cfg == DefaultConfig then 5 else 10
  {
    FreshWindowBound(Empty, ip, start, later, cfg);
  }

  /**
   * Once an IP exceeds the limit at `now`, every request from it before
   * `now + 300000` is refused and changes nothing; the block lapses exactly
   * at `now + 300000`.
   */
  lemma BlockHolds(s: Limiter, ip: string, now: int, cfg: Config, later: int)
    requires now >= 0
    requires CheckRateLimit(s, ip, now, cfg).verdict.LimitExceeded?
    ensures var b := CheckRateLimit(s, ip, now, cfg).limiter;
            (now <= later < now + BlockDurationMs ==>
               CheckRateLimit(b, ip, later, cfg) == Step(b, TemporarilyBlocked(CeilSeconds(now + BlockDurationMs - later)))) &&
            (later >= now + BlockDurationMs ==> !IsBlocked(b, ip, later))
  {
  }

  /** A request refused as blocked is not counted: replaying it leaves the limiter unchanged. */
  lemma {:induction false} BlockedRequestsLeaveNoTrace(s: Limiter, ip: string, times: seq<int>, cfg: Config)
    requires forall k :: 0 <= k < |times| ==> IsBlocked(s, ip, times[k])
    ensures Replay(s, ip, times, cfg) == s
    ensures Successes(s, ip, times, cfg) == 0
    decreases |times|
  {
    if |times| > 0 {
      assert forall k :: 0 <= k < |times[1..]| ==> times[1..][k] == times[k + 1];
      BlockedRequestsLeaveNoTrace(s, ip, times[1..], cfg);
    }
  }

  /**
   * The bound is reached: within a live window and with no block in force,
   * requests succeed one after another until the count reaches `max`.
   */
  lemma {:induction false} LiveWindowAdmitsUpToMax(s: Limiter, ip: string, times: seq<int>, cfg: Config)
    requires ip in s.trackers
    requires s.trackers[ip].count + |times| <= cfg.max
    requires forall k :: 0 <= k < |times| ==> times[k] <= s.trackers[ip].expiresAt && !IsBlocked(s, ip, times[k])
    ensures Successes(s, ip, times, cfg) == |times|
    ensures Replay(s, ip, times, cfg).blockedIps == s.blockedIps
    ensures ip in Replay(s, ip, times, cfg).trackers
    ensures Replay(s, ip, times, cfg).trackers[ip] == Window(s.trackers[ip].count + |times|, s.trackers[ip].expiresAt)
    decreases |times|
  {
    if |times| > 0 {
      var r := CheckRateLimit(s, ip, times[0], cfg);
      assert forall k :: 0 <= k < |times[1..]| ==> times[1..][k] == times[k + 1];
      LiveWindowAdmitsUpToMax(r.limiter, ip, times[1..], cfg);
    }
  }
}

=== FILE: wrappers.dfy ===
/** Failure-compatible wrappers shared by the whole model: `Option` stands for a
    JavaScript value that may be `undefined` (or `null`), `Result` for a call that
    either returns a value or throws / answers with an error message. */
module Wrappers {

  datatype Option<+T> = None | Some(value: T) {

    /** The value, or `default` when absent: JavaScript's `x ?? default` and, for
        numbers that are never 0 or NaN in the absent case, `x || default`. */
    function GetOr(default: T): T {
      match this
      case Some(v) => v
      case None => default
    }
  }

  datatype Result<+T, +E> = Ok(value: T) | Err(error: E)
}
